=== FILE: README.md ===
# AI Character Council — a Dafny model of its core

This project models the core of the AI Character Council desktop app. The app is an Electron main process plus a React renderer, for writers who keep fictional characters, notes and timelines, and who "talk" to their characters.

The model covers these parts:

* **Credential vault** of the packaged main process (`src/dist/main/services/AIService.js`):
  * provider API keys are sealed with AES-256-GCM under an scrypt key derived from the application secret;
  * each key is stored as two keychain entries, the sealed text and its IV;
  * the `set-api-key`, `get-api-key`, `has-api-key` and `generate-character-response` commands.
* **Canned responder** of `src/main/services/AIService.ts`:
  * provider priority;
  * the keyword templates and the `concise`/`detailed` styles;
  * the memory query (top ten by importance).
* **Record commands** of `src/main/main.ts`: notes and timeline events behind `{success, data | error}` envelopes, and the raw key-saving commands.
* **Renderer `SecureStorage`**: AES-CBC with PKCS#7 under a PBKDF2 key, packed as `salt:iv:ciphertext`.
* **Contexts**:
  * `ProjectContext`: the project list, the active project and its persisted id;
  * `ApiKeyContext`: masked key status.
* **Four form dialogs**: note, timeline event, project and timeline.
* **Character editor**: the `useCharacter` hook over the stand-in `characterService`.
* **Pages**:
  * the character list page, with search and create;
  * the conversation page, with numbered messages and keyword replies.

Every operation is a pure function from the old state (and the collaborator answers) to the new state and the reply.

Collaborators are parameters:
* a keychain or ORM call that may throw is a `Fault` naming which call throws;
* an IPC reply is a `Reply` that resolves to an envelope or rejects;
* the clock, `Math.random()` and the random IV/salt draws are arguments;
* ciphers, key derivation and UTF-8 are function-valued fields of a `Host`. Their correctness (`AeadCorrect`, `CbcCorrect`, `CodecCorrect`, `StrictCodecCorrect`) is a hypothesis of the round-trip lemmas. The renderer's UTF-8 decoder is strict: it refuses bytes that are not UTF-8, as `CryptoJS.enc.Utf8` throws on them.

JavaScript's truthiness (`Text.Truthy`), `trim`, ASCII `toLowerCase`, `includes`, `split` and `join` are defined in `Text`. Base64 is defined in `Base64`, with its round trip proved.

Behaviours of the code that the model keeps as written:

* `getCharacter` picks the project by id (`'1'` or `'3'`) but every other field by the else-branch. So an id such as `'7'` gets Dr. Nova filed under the fantasy trilogy (`Characters.OtherIdsGetNovaInFantasy`).
* The raw `set-openai-key`/`set-anthropic-key` of `main.ts` write to the keychain service `ai-character-council`. The vault reads `AI-Character-Council`. On a keychain that tells service names apart by case, a key saved the raw way is never seen by the vault (`Records.RawKeyInvisibleToVault`).
* A vault store whose second keychain write throws, for a provider that had no IV stored, leaves a sealed key with no IV. That key then reads as broken (`Vault.HalfWrittenStore`). If the provider had an IV, the new sealed text sits beside the old IV instead.
* The timeline-event dialog's change handler writes any input name into the form data. The characters field is never validated.
* `SecureStorage.decrypt` reads the first three `:`-separated fields and ignores the rest.

## Model

| member | source | states |
|---|---|---|
| Text.LowerIdempotent | src/renderer/pages/CharacterManager.tsx:41-45 | lower-casing twice is lower-casing once, and leaves no upper-case ASCII letter |
| Text.ContainsIff | src/renderer/pages/Conversation.tsx:32-40 | `includes` holds exactly when the needle occurs at some offset |
| Text.Trim | src/renderer/components/notes/NoteForm.tsx:54 | the trimmed text is an infix of the input, everything cut before and after it is white space, and it neither starts nor ends with white space |
| Text.BlankIffAllWhite | src/renderer/components/notes/NoteForm.tsx:54-61 | `!s.trim()` holds exactly when every character is white space |
| Text.Split | src/dist/main/services/AIService.js:120 | splitting yields at least one part, no part holds the separator, and joining the parts gives the input back |
| Text.SplitJoin | src/renderer/services/SecureStorage.ts:16-23 | splitting what was joined from separator-free parts gives the parts back |
| Text.BeforeFirst | src/main/services/AIService.ts:97 | `split(c)[0]`: the longest prefix without `c`, followed in the input by `c` if it is shorter |
| Base64.Encode | src/dist/main/services/AIService.js:107-108 | the encoding uses only base64 digits and `=` |
| Base64.DecodeEncode | src/dist/main/services/AIService.js:125-128 | decoding the base64 encoding of any byte string gives it back |
| Base64.EncodeAvoids | src/dist/main/services/AIService.js:107 | a base64 text never contains the `.` or `:` separators, so joining fields with them is unambiguous |
| Sorting.SortBy | src/main/main.ts:121 | sorting by a key is a permutation whose keys are non-decreasing |
| Sorting.SortedSplit | src/main/services/AIService.ts:165-166 | in a sorted list, an element not in a prefix has a key no smaller than any element of that prefix |
| Primitives.Pad | src/renderer/services/SecureStorage.ts:12 | PKCS#7 padding gives whole blocks, adds 1 to 16 bytes, keeps the data as a prefix, and every pad byte equals the pad length |
| Primitives.Unpad | src/renderer/services/SecureStorage.ts:29 | a successful unpad returns a proper prefix of its input |
| Primitives.UnpadPad | src/renderer/services/SecureStorage.ts:12-29 | unpadding undoes padding |
| Vault.AppSecret | src/dist/main/services/AIService.js:82 | the secret is `APP_SECRET` when it is set and non-empty, and 'default-dev-secret' otherwise; it is never empty |
| Vault.Encrypt | src/dist/main/services/AIService.js:95-112 | the sealed text is base64(ciphertext) '.' base64(tag) of the GCM seal under the derived key, and the stored IV decodes to the IV drawn |
| Vault.Decrypt | src/dist/main/services/AIService.js:114-139 | every failure is 'Failed to decrypt data'; anything but two '.'-parts fails; it succeeds exactly when both parts and the IV decode and the cipher opens them, and then gives the UTF-8 decoding of the opened bytes |
| Vault.DecryptEncrypt | src/dist/main/services/AIService.js:95-139 | with a correct cipher and codec, decrypting what was encrypted gives the plaintext back |
| Vault.SlotsDistinct | src/dist/main/services/AIService.js:152-156 | a provider's sealed-key slot and IV slot never coincide, and different providers never share a slot |
| Vault.Lookup | src/dist/main/services/AIService.js:171-202 | a missing or empty sealed entry is no key; a key is found exactly when both reads succeed, both entries are non-empty and decryption succeeds, and it is the decrypted text |
| Vault.GetApiKey | src/dist/main/services/AIService.js:171-202 | `getApiKey` returns the key exactly when the lookup finds it, and `null` on every error |
| Vault.HasApiKey | src/dist/main/services/AIService.js:229-241 | `hasApiKey` is the truthiness of the retrieved key, so a stored empty key does not count |
| Vault.StoreApiKey | src/dist/main/services/AIService.js:141-169 | other slots are untouched; a throw from either write is rethrown; a first-write throw changes nothing; each write that happens stores the sealed text or the IV |
| Vault.DeleteApiKey | src/dist/main/services/AIService.js:204-227 | other slots are untouched; a throw is rethrown after the deletions before it; each deletion that happens removes its slot |
| Vault.StoreThenGet | src/dist/main/services/AIService.js:141-202 | with a correct cipher, a key stored without a fault reads back as itself, whatever the keychain held |
| Vault.SealedNonEmpty | src/dist/main/services/AIService.js:106-109 | both stored texts of a sealed key are non-empty, so a lookup sees them as present |
| Vault.DeleteThenGet | src/dist/main/services/AIService.js:204-237 | after a clean deletion the provider has no key and `hasApiKey` is false |
| Vault.DeleteIdempotent | src/dist/main/services/AIService.js:204-227 | deleting twice is deleting once |
| Vault.LookupLocal | src/dist/main/services/AIService.js:171-202 | a lookup depends only on the provider's own two slots |
| Vault.OtherProvidersUnaffected | src/dist/main/services/AIService.js:141-227 | storing or deleting one provider's key leaves every other provider's key as it was, faults or not |
| Vault.HalfWrittenStore | src/dist/main/services/AIService.js:152-156 | a store whose IV write throws, for a provider without an IV, leaves a key that reads as 'Initialization vector not found' |
| Vault.SetApiKeyCommand | src/dist/main/services/AIService.js:353-377 | a falsy key deletes and any other key is stored; the reply is an error exactly when a keychain call threw, with the described error |
| Vault.SetThenHas | src/dist/main/services/AIService.js:353-415 | after a clean `set-api-key`, `has-api-key` is true exactly when the key was non-empty, and `get-api-key` returns it |
| Vault.GetApiKeyCommand | src/dist/main/services/AIService.js:379-396 | `get-api-key` always succeeds, and carries a key exactly when the lookup finds one, that key being the one the lookup decrypted |
| Vault.HasApiKeyCommand | src/dist/main/services/AIService.js:398-415 | `has-api-key` always succeeds, and answers whether a non-empty key is found |
| Vault.StoredKeys | src/dist/main/services/AIService.js:243-262 | the OpenAI key is read first, and the Anthropic key only when the OpenAI key is falsy |
| Vault.StoredProvider | src/dist/main/services/AIService.js:243-269 | OpenAI answers exactly when its stored key reads back non-empty; Anthropic answers exactly when OpenAI's does not and Anthropic's does |
| Vault.GenerateCharacterResponseCommand | src/dist/main/services/AIService.js:417-453 | the command fails exactly on a lookup error, an unknown character ('Character not found') or a memory-query error; otherwise a stored OpenAI key gives the OpenAI template reply, else a stored Anthropic key the Anthropic one, else one of the local replies |
| Vault.CommandAgreesWithService | src/dist/main/services/AIService.js:243-269 | the packaged command answers what the in-memory service answers for any key state that selects the same provider as the stored keys |
| Responder.SetOpenAIKey | src/main/services/AIService.ts:26-30 | only the OpenAI key changes, to the given value |
| Responder.SetAnthropicKey | src/main/services/AIService.ts:32-36 | only the Anthropic key changes, to the given value |
| Responder.HasKeyAfterSet | src/main/services/AIService.ts:26-45 | `has*Key` reports whether the last key set for that provider is non-empty, and is unaffected by setting the other |
| Responder.SelectProvider | src/main/services/AIService.ts:57-66 | OpenAI exactly when its key is truthy; Anthropic exactly when only its key is truthy; the local model otherwise |
| Responder.TopicOf | src/main/services/AIService.ts:85-93 | the lower-cased prompt's topic: mission/goal first, then feel/emotion, then think/opinion, with each topic exactly when no earlier one matched |
| Responder.FeelClause | src/main/services/AIService.ts:88 | the feeling clause is 'conflicted' exactly when the traits say so, 'loyal' exactly when they say that and not 'conflicted', and the fallback otherwise |
| Responder.ThinkClause | src/main/services/AIService.ts:90 | the opinion clause follows 'strategic', then 'wise', then the fallback, each exactly when no earlier word occurs |
| Responder.OpeningClause | src/main/services/AIService.ts:92 | the general opening follows 'mysterious', then 'intelligent', then the fallback |
| Responder.ValueClause | src/main/services/AIService.ts:92 | the general closing follows 'knowledge', then 'progress', then the fallback |
| Responder.BaseResponse | src/main/services/AIService.ts:79-93 | each topic's reply starts with its fixed opening and trait-chosen clause; the closing sentence is present exactly when the traits say 'determined' (mission) or the values say 'honor' (feeling) or 'truth' (opinion); the general reply is the opening, a space and the value clause |
| Responder.BaseResponseIgnoresName | src/main/services/AIService.ts:79-93 | the character's name and voice patterns never enter the templated reply |
| Responder.ApplyStyle | src/main/services/AIService.ts:96-100 | 'concise' keeps the reply up to its first '.' and ends with one '.'; 'detailed' appends a space, the voice patterns and the fixed tail; any other style leaves the reply as it is |
| Responder.MockOpenAIResponse | src/main/services/AIService.ts:70-103 | any style but 'concise' and 'detailed' gives the templated reply; 'concise' gives the templated reply's text up to its first '.' followed by one '.'; 'detailed' gives the templated reply, a space, the voice patterns (or '') and the fixed tail |
| Responder.MockLocalModelResponse | src/main/services/AIService.ts:116-133 | the local reply is one of the four fixed replies for the character's name |
| Responder.GenerateResponse | src/main/services/AIService.ts:48-114 | with either key set the reply is the OpenAI template reply (the Anthropic mock answers the same); with neither it is one of the local replies |
| Responder.GenerateResponseByProvider | src/main/services/AIService.ts:48-67 | two key states that select the same provider give the same reply, whatever memories each is given |
| Responder.OfCharacter | src/main/services/AIService.ts:163-164 | the selected rows are exactly the table's rows for the character |
| Responder.TopMemories | src/main/services/AIService.ts:163-167 | at most ten rows of the character, by descending importance; no omitted row is more important than a kept one; if fewer than ten are kept, none is omitted |
| Responder.TakeSortedMemories | src/main/services/AIService.ts:163-167 | a prefix of the character's rows sorted by descending importance keeps only that character's rows, in descending order |
| Responder.OmittedMemories | src/main/services/AIService.ts:165-166 | what a prefix of the sorted rows leaves out is no more important than anything it keeps |
| Responder.GenerateCharacterResponse | src/main/services/AIService.ts:152-184 | an error exactly on a lookup throw, an unknown character ('Character not found') or a memory-query throw; otherwise a reply: the template reply when a key is set, one of the local replies when none is |
| Responder.CharacterResponseIgnoresMemories | src/main/services/AIService.ts:159-176 | the command's answer is the same whatever memories are stored |
| Responder.SetOpenAIKeyCommand | src/main/services/AIService.ts:141-144 | `set-openai-key` stores the key in the service object and always succeeds |
| Responder.SetAnthropicKeyCommand | src/main/services/AIService.ts:146-149 | `set-anthropic-key` stores the key in the service object and always succeeds |
| Records.GetTimelineEvents | src/main/main.ts:118-128 | every event, as a permutation of the table, earliest date first; the ORM's error otherwise |
| Records.GetNotes | src/main/main.ts:132-142 | every note, as a permutation of the table, newest first; the ORM's error otherwise |
| Records.CreateNote | src/main/main.ts:144-154 | the store gains exactly the new row built from the payload, the id and the timestamp, and the reply carries that row |
| Records.PatchNote | src/main/main.ts:156-161 | the fields the patch carries replace the note's; the id, project and creation time are kept |
| Records.UpdateNote | src/main/main.ts:156-167 | an error leaves the store unchanged; an unknown id is the ORM's not-found error; a success replaces the row with that id by its patched version |
| Records.DeleteNote | src/main/main.ts:169-179 | an error leaves the store unchanged; an unknown id is not found; a success removes the row with that id and nothing else |
| Records.CreateTimelineEvent | src/main/main.ts:181-194 | the store gains exactly the new event, with the payload's date parsed |
| Records.PatchEvent | src/main/main.ts:196-203 | an absent or empty date keeps the stored date, and any other date is parsed; the other fields take the patch's values when present |
| Records.UpdateTimelineEvent | src/main/main.ts:196-210 | an error leaves the store unchanged; an unknown id is not found; a success replaces the event with its patched version |
| Records.DeleteTimelineEvent | src/main/main.ts:212-222 | an error leaves the store unchanged; an unknown id is not found; a success removes the event with that id |
| Records.UpdateWithoutDateKeepsDate | src/main/main.ts:202 | an update without a date, or with an empty one, changes no event's date |
| Records.AppendFresh | src/main/main.ts:144-154 | appending a row with a key no row has keeps the keys unique |
| Records.RemoveAt | src/main/main.ts:169-179 | removing one row keeps the keys unique, removes its key, shortens the table by one and keeps every other row |
| Records.NoteCommandsKeepIdsUnique | src/main/main.ts:144-179 | creating a note with a fresh id, and updating or deleting the note with any id, keep note and event ids unique |
| Records.EventCommandsKeepIdsUnique | src/main/main.ts:181-222 | creating an event with a fresh id, and updating or deleting the event with any id, keep note and event ids unique |
| Records.DeleteNoteRemovesOne | src/main/main.ts:169-179 | after a deletion no note has the id, one row fewer is left on success, and every other note remains |
| Records.DeleteEventRemovesOne | src/main/main.ts:212-222 | after a deletion no event has the id, one row fewer is left on success, and every other event remains |
| Records.SetRawKey | src/main/main.ts:99-106 | the raw commands write the key as is under 'ai-character-council', and a keychain throw rejects the call |
| Records.RawKeyInvisibleToVault | src/main/main.ts:99-106 | a key saved by the raw commands changes no provider's key as the vault reads it |
| SecureStorage.Encrypt | src/renderer/services/SecureStorage.ts:6-21 | the result splits on ':' into exactly the base64 salt, IV and ciphertext, each decoding back to what was drawn or computed |
| SecureStorage.Decrypt | src/renderer/services/SecureStorage.ts:22-33 | fewer than three fields is the missing-field failure and nothing else is; with three or more, a non-base64 field among the first three is exactly the base64 failure; otherwise the result is the UTF-8 decoding of the unpadded CBC decryption, the padding failure exactly when it does not unpad, and the UTF-8 failure when the unpadded bytes are not UTF-8 |
| SecureStorage.DecryptEncrypt | src/renderer/services/SecureStorage.ts:6-33 | with a correct cipher and codec, decrypting what was encrypted gives the string back, whatever salt and IV were drawn |
| SecureStorage.ExtraFieldsIgnored | src/renderer/services/SecureStorage.ts:23 | fields after the third do not change what decryption returns |
| Projects.Mount | src/renderer/contexts/ProjectContext.tsx:32-38 | on mount nothing is loaded, loading is on, and the active id is the stored one |
| Projects.ChooseActiveId | src/renderer/contexts/ProjectContext.tsx:100-118 | the chosen id is listed: the stored id exactly when it is truthy and listed, else the default project if listed, else the first project |
| Projects.SetActiveProjectId | src/renderer/contexts/ProjectContext.tsx:136-143 | the active id is set; a truthy id is persisted and a falsy one removes the stored id; nothing else changes |
| Projects.InitActive | src/renderer/contexts/ProjectContext.tsx:97-133 | nothing happens while loading; a loaded non-empty list gets a listed active id, which is persisted; an empty list clears both |
| Projects.Find | src/renderer/contexts/ProjectContext.tsx:89 | a project is found exactly when one is listed with the id, and it is the first such |
| Projects.ActiveProject | src/renderer/contexts/ProjectContext.tsx:87-94 | there is an active project exactly when the active id is truthy and listed, and it carries that id |
| Projects.LoadedListHasActiveProject | src/renderer/contexts/ProjectContext.tsx:87-133 | once a non-empty list with non-empty ids has loaded, some project is active and its id is persisted |
| Projects.StoredIdKeptIffListed | src/renderer/contexts/ProjectContext.tsx:103-108 | a stored id survives initialisation exactly when it is listed |
| Projects.RefreshProjects | src/renderer/contexts/ProjectContext.tsx:40-60 | loading ends; a successful reply's list (or none) is taken; any failure empties the list and records the bridge, rejection or reply message |
| Projects.CreateProject | src/renderer/contexts/ProjectContext.tsx:62-80 | the project is returned exactly when the reply succeeds with data, and the list is then refreshed; otherwise the list is kept and an error is recorded |
| Projects.RefreshThenActive | src/renderer/contexts/ProjectContext.tsx:40-133 | a refresh that receives a non-empty list with non-empty ids, followed by initialisation, makes a project from that list active |
| Projects.CreateThenActive | src/renderer/contexts/ProjectContext.tsx:62-133 | a created project followed by a refresh that lists projects makes a listed project active, and the created project is returned |
| Projects.NoBridgeNoActiveProject | src/renderer/contexts/ProjectContext.tsx:40-133 | without the IPC bridge a refresh leaves no projects, the bridge message and no active project |
| ApiKeys.MaskFor | src/renderer/contexts/ApiKeyContext.tsx:47-48 | the entry is the mask exactly when a key is configured, and empty exactly when none is |
| ApiKeys.Load | src/renderer/contexts/ApiKeyContext.tsx:37-58 | a rejected call keeps the state; otherwise each entry is the mask exactly when its `has` reply says so; entries stay masked |
| ApiKeys.IsConfigured | src/renderer/contexts/ApiKeyContext.tsx:76-78 | a provider is configured exactly when its entry is the mask |
| ApiKeys.SetApiKey | src/renderer/contexts/ApiKeyContext.tsx:61-73 | a rejection rethrows and keeps the state; otherwise the entry is the mask exactly when the key is non-empty; the other entry is untouched |
| ApiKeys.ClearRequest | src/renderer/contexts/ApiKeyContext.tsx:83 | clearing sends the provider's name with an empty key |
| ApiKeys.ClearApiKey | src/renderer/contexts/ApiKeyContext.tsx:81-93 | a rejection rethrows and keeps the state; otherwise the entry is emptied; the other entry is untouched |
| ApiKeys.ClearIsSetEmpty | src/renderer/contexts/ApiKeyContext.tsx:81-93 | clearing behaves as setting the empty key |
| ApiKeys.SetAgreesWithVault | src/renderer/contexts/ApiKeyContext.tsx:37-73 | after setting a key through a working vault, the entry is masked exactly when the vault reports a key, and a reload agrees |
| NoteForm.Open | src/renderer/components/notes/NoteForm.tsx:26-39 | when open, the note is copied in (tags default to '') or the fields are cleared, and the error is cleared; when closed nothing changes |
| NoteForm.HandleChange | src/renderer/components/notes/NoteForm.tsx:45-50 | 'title', 'content' and 'tags' take the value; any other name changes nothing |
| NoteForm.ValidationError | src/renderer/components/notes/NoteForm.tsx:54-61 | no error exactly when content and title both have non-white text; blank content is reported first |
| NoteForm.HandleSubmit | src/renderer/components/notes/NoteForm.tsx:52-69 | the form submits exactly when valid, with the id and the untrimmed fields; otherwise it records the message |
| TimelineEventForm.DayOf | src/renderer/components/timeline/TimelineEventForm.tsx:36 | the day is the ISO text's prefix up to its first 'T' |
| TimelineEventForm.Populate | src/renderer/components/timeline/TimelineEventForm.tsx:33-44 | the event is copied in with its date cut to the day (an empty date stays empty), or the fields are cleared; the error is kept; an invalid date throws |
| TimelineEventForm.HandleChange | src/renderer/components/timeline/TimelineEventForm.tsx:46-49 | the named field takes the value; any other name is added to the form data |
| TimelineEventForm.ValidationError | src/renderer/components/timeline/TimelineEventForm.tsx:55-62 | no error exactly when date and description both have non-white text; a blank date is reported first |
| TimelineEventForm.HandleSubmit | src/renderer/components/timeline/TimelineEventForm.tsx:51-68 | the form submits exactly when valid, with the id and the whole form data |
| TimelineEventForm.CharactersNeverValidated | src/renderer/components/timeline/TimelineEventForm.tsx:51-68 | the characters field neither blocks nor enables a submission |
| NamedForm.HandleChange | src/renderer/components/project/ProjectForm.tsx:27-31 | only 'name' and 'description' are written |
| NamedForm.RejectionMessage | src/renderer/components/project/ProjectForm.tsx:43-45 | a rejection shows its message when truthy, and 'An error occurred during submission.' otherwise |
| NamedForm.HandleSubmit | src/renderer/components/project/ProjectForm.tsx:33-47 | a blank name is refused without a call; otherwise the name and description are submitted, and the error is cleared or set from the rejection |
| NamedForm.DescriptionNeverValidated | src/renderer/components/timeline/TimelineForm.tsx:38-53 | the description neither blocks nor enables a submission |
| ProjectForm.Open | src/renderer/components/project/ProjectForm.tsx:14-21 | opening clears both fields and the error; otherwise nothing changes |
| ProjectForm.HandleSubmit | src/renderer/components/project/ProjectForm.tsx:33-47 | submits exactly when the name has non-white text; a refusal says 'Project name cannot be empty.' |
| TimelineForm.Open | src/renderer/components/timeline/TimelineForm.tsx:15-26 | when open, the timeline is copied in (the description defaults to '') or cleared, and the error is cleared |
| TimelineForm.HandleSubmit | src/renderer/components/timeline/TimelineForm.tsx:38-53 | submits exactly when the name has non-white text; a refusal says 'Timeline name cannot be empty.' |
| Characters.StockOf | src/renderer/services/characterService.ts:11 | id '1' selects Captain Elara, id '2' Wizard Thorne, and every other id Dr. Nova |
| Characters.GetCharacterFrom | src/renderer/services/characterService.ts:5-96 | the character carries the requested id |
| Characters.GetCharacter | src/renderer/services/characterService.ts:5-96 | the service's character carries the requested id |
| Characters.NameById | src/renderer/services/characterService.ts:11 | the name is Captain Elara exactly for '1', Wizard Thorne exactly for '2', and Dr. Nova exactly otherwise |
| Characters.ProjectById | src/renderer/services/characterService.ts:32 | the project is the space opera exactly for ids '1' and '3', and the fantasy trilogy otherwise |
| Characters.MemoriesById | src/renderer/services/characterService.ts:34-90 | whatever the id, three memories (ids '1' to '3', importance 5, 4, 3, two episodic then one semantic) and two relationships (ids '1', '2') |
| Characters.OtherIdsGetNovaInFantasy | src/renderer/services/characterService.ts:11-32 | an id other than '1', '2', '3' gets the same character as '3' but under a different project |
| Characters.SameStockSameRecord | src/renderer/services/characterService.ts:9-90 | ids that select the same character and project get the same record apart from the id |
| Characters.UpdateCharacter | src/renderer/services/characterService.ts:98-105 | the echoed record is the data with its id replaced by the requested one, so its editable fields are the data's |
| Characters.UpdateIdempotent | src/renderer/services/characterService.ts:98-105 | updating twice under one id is updating once |
| CharacterHook.AsError | src/renderer/hooks/useCharacter.ts:51 | the recorded error is an Error: the thrown one if it is an Error, else one carrying the fallback message |
| CharacterHook.Fetch | src/renderer/hooks/useCharacter.ts:30-58 | loading ends; without a truthy id nothing else changes; a fetched character is shown in the form and clears the error; a rejection records the error and keeps the rest |
| CharacterHook.UpdateFormField | src/renderer/hooks/useCharacter.ts:60-65 | the named field takes the value, the other fields and the rest of the state are unchanged |
| CharacterHook.Overlay | src/renderer/hooks/useCharacter.ts:73-80 | the sent record shows the form's fields and keeps the character's id, project, date, memories and relationships |
| CharacterHook.SaveCharacter | src/renderer/hooks/useCharacter.ts:67-90 | nothing is sent exactly when there is no character or no truthy id; a success shows the form under the id and ends editing; a rejection records the error |
| CharacterHook.ResetForm | src/renderer/hooks/useCharacter.ts:92-102 | the form shows the loaded character again; without one nothing changes |
| CharacterHook.ResetUndoesEdits | src/renderer/hooks/useCharacter.ts:60-102 | an edit followed by a reset gives the same state as the reset alone |
| CharacterHook.SavedFormSurvivesReset | src/renderer/hooks/useCharacter.ts:67-102 | after a successful save, a reset changes nothing |
| CharacterHook.FetchShowsServiceName | src/renderer/hooks/useCharacter.ts:40-48 | fetching the service's character puts 'Captain Elara' in the name field exactly for id '1' |
| CharacterManager.Filter | src/renderer/pages/CharacterManager.tsx:41-45 | the shown cards keep list order, and a card is shown exactly when it is listed and its name, description or traits contain the term case-insensitively |
| CharacterManager.EmptyTermMatches | src/renderer/pages/CharacterManager.tsx:41-45 | every card matches the empty term |
| CharacterManager.EmptyTermKeepsAll | src/renderer/pages/CharacterManager.tsx:41-45 | an empty search shows every card in order |
| CharacterManager.FilterIgnoresTermCase | src/renderer/pages/CharacterManager.tsx:41-45 | the search gives the same cards for a term and its lower case |
| CharacterManager.NewCard | src/renderer/pages/CharacterManager.tsx:47-55 | the card takes the dialog's fields, the clock's id, and the ISO date up to its 'T' |
| CharacterManager.HandleCreate | src/renderer/pages/CharacterManager.tsx:47-60 | one card is appended after the existing ones, the dialog is reset and closed, and the search is untouched |
| CharacterManager.CreatedCardListedLast | src/renderer/pages/CharacterManager.tsx:41-60 | under the current search the new card is listed last exactly when it matches, after every card listed before |
| CharacterManager.FilterAppend | src/renderer/pages/CharacterManager.tsx:41-45 | filtering a list with a card appended is filtering the list, then the card if it matches |
| Conversation.Send | src/renderer/pages/Conversation.tsx:14-23 | a message that is blank after trimming changes nothing; otherwise it is appended as a user message numbered one past the list, the input is cleared and processing starts |
| Conversation.TopicOf | src/renderer/pages/Conversation.tsx:28-40 | the lower-cased message's topic: mission/nebula, then crew/ship, then void/collective, then past/history, each exactly when no earlier one matched |
| Conversation.Respond | src/renderer/pages/Conversation.tsx:43-44 | the reply is appended as a character message numbered one past the list at that moment, and processing ends |
| Conversation.InitialWellNumbered | src/renderer/pages/Conversation.tsx:4-9 | the opening messages are numbered 1 to 4 |
| Conversation.SendKeepsNumbering | src/renderer/pages/Conversation.tsx:18-19 | sending keeps the ids numbered 1 to n in list order |
| Conversation.RespondKeepsNumbering | src/renderer/pages/Conversation.tsx:43 | a reply keeps the numbering, whenever it fires |
| Conversation.SendThenRespond | src/renderer/pages/Conversation.tsx:14-45 | a send answered at once adds exactly the user message and the reply, numbered on from the list |
| Conversation.WellNumberedDistinct | src/renderer/pages/Conversation.tsx:18-43 | well-numbered messages have distinct ids |
| Conversation.MissionBeatsCrew | src/renderer/pages/Conversation.tsx:32-35 | a message that mentions a mission and a ship gets the mission reply |

## Left out

- Timers, delays, React rendering and effect scheduling are left out. Each handler or effect is one transition, and the order of transitions is the caller's choice. The conversation reply is the separate step `Conversation.Respond`, applied to `Conversation.Reply` of the sent text.
- The insides of AES-GCM, AES-CBC, scrypt, PBKDF2 and UTF-8 are not modelled. They are function-valued parameters. Their correctness is a hypothesis, and `Primitives.ToyAead` shows the hypothesis can be met.
- Randomness and the clock (`randomBytes`, `CryptoJS.lib.WordArray.random`, `Math.random`, `Date.now`, `new Date()`) are left out; they become arguments.
- `Base64.Decode` is strict. Node's and CryptoJS's decoders skip characters they do not know. The round trips only decode what was encoded, where the two agree.
- `Primitives.Unpad` rejects malformed padding. CryptoJS strips by the last byte without checking. Only properly padded input reaches it in the round trip.
- SecureStorage.Decrypt: each `Failure` stands for `decrypt` throwing. `MissingField` (a field read as `undefined`) and `BadUtf8` ('Malformed UTF-8 data') are throws CryptoJS makes too. `BadBase64` and `BadPadding` are the model's strict checks: CryptoJS reports neither, and carries on with whatever bytes its lenient base64 and unchecked unpadding give, ending in the UTF-8 throw or in some string. The model does not say which.
- Text.Lower: lower-cases the ASCII letters only; full Unicode case mapping is not modelled. `Text.IsWhite` is the full ECMAScript WhiteSpace and LineTerminator set that `trim` removes.
- Vault.Decrypt: states that the parts decode and authenticate, not how Node streams the ciphertext through `update`/`final`.
- The ORM's error texts are not modelled. A missing row throws an opaque `notFound` value, and the commands report its message.
- The order among rows with equal sort keys (`orderBy`) is not fixed. The model sorts stably, but its contracts claim only the key order.
- Records.CreateTimelineEvent: `Records.DateParser` is total. In the program, `new Date(text)` of an unparsable text is an Invalid Date (`src/main/main.ts:186`, `:202`), which the ORM refuses for its date column; the call throws, the handler answers `{success: false, error}` and no row is written. The model instead stores whatever timestamp the parser gives; that error reply is reachable in the model only through `fault`. The same holds for `Records.UpdateTimelineEvent`.
- `Records.GetAppInfo` is a plain record of the version, name and platform, which are host values; it has no contract.
- Records.SetRawKey: the raw 'set-openai-key' and 'set-anthropic-key' handlers are registered when `main.ts` loads (`src/main/main.ts:99-106`), before `setupAIHandlers()` runs inside `app.whenReady()` (`src/main/main.ts:53-67`). Electron's `ipcMain.handle` throws when a channel already has a handler, so as written the service's first registration, 'set-openai-key', throws; its later handlers, 'generate-character-response' among them, are never registered, and `createWindow()` (`src/main/main.ts:70`) is not reached. Start-up is not modelled: each handler is modelled on its own, as its code reads.
- Responder.GenerateCharacterResponse: the success reply's field is `response`, not `data`; the envelope carries it as data. An undefined `prompt` is not modelled; the prompt is a string.
- Characters.UpdateCharacter: `Partial<Character>` is modelled as a whole `Character`. The hook always sends a whole record.
- `Characters.GetCharacter` states only the id. Its display texts are `Characters.ServiceTexts`, and the lemmas about names, projects and memories are stated over any catalogue of texts, which includes that one.
- CharacterHook.Fetch: the service calls are parameters (`fetched`, `saveFault`), not the stand-in service.
- The type-only files (`types/character.ts`, `types/electron.d.ts`) carry no behaviour beyond the records above.
- ApiKeys.SetAgreesWithVault: describes the API-key context over a bridge that exposes `apiKeys`. The preload script (`src/main/preload.js:11-57`) exposes neither `apiKeys` nor `ipcRenderer`, so as written every call of that context rejects; the rejection path is the one `ApiKeys.Load`, `ApiKeys.SetApiKey` and `ApiKeys.ClearApiKey` state for a rejected call.
- Projects.RefreshProjects: for the same reason `window.electron.ipcRenderer` is absent as the preload script is written, so the project context always takes the no-bridge path (`Projects.NoBridgeNoActiveProject`); the other paths are modelled for a bridge that exposes it.
- Records.RawKeyInvisibleToVault: the keychain is a map keyed by the exact service name, so 'ai-character-council' and 'AI-Character-Council' are different slots. Windows Credential Manager compares target names without regard to case; there the raw commands would overwrite the vault's sealed entry for 'openai' or 'anthropic' with the plain key, and the lemma does not describe that platform.
- SecureStorage.DecryptEncrypt: `SecureStorage.Decrypt` reads the third field as plain base64. CryptoJS parses a string ciphertext in the OpenSSL format instead: a ciphertext whose bytes start with `Salted__` loses its first 16 bytes to a salt header. So the round trip is proved for every ciphertext, while with CryptoJS it fails for a CBC output that starts with those 8 bytes; the model does not carry that exception.
- `NotesPage.tsx` is not part of this model: its source text holds unresolved merge-conflict markers.

=== FILE: api_keys.dfy ===
/**
 * The API-key context of the renderer (src/renderer/contexts/ApiKeyContext.tsx).
 * It never holds a key: each provider's entry is '' or a fixed mask telling
 * the settings page that a key is configured in the vault.
 */
module ApiKeys {
  import opened Wrappers
  import opened Octets
  import opened Envelopes
  import Vault

  /** Sixteen bullets (U+2022). */
  const Mask := "••••••••••••••••"

  datatype Service = OpenAIService | AnthropicService {
    /** The account name the vault files the key under. */
    function Name(): string {
      match this
      case OpenAIService => "openai"
      case AnthropicService => "anthropic"
    }
  }

  /** The `apiKeys` state: one masked entry per provider. */
  datatype KeyStatus = KeyStatus(openai: string, anthropic: string) {
    function Entry(service: Service): string {
      match service
      case OpenAIService => openai
      case AnthropicService => anthropic
    }

    /** `{...prev, [service]: value}`. */
    function With(service: Service, value: string): (r: KeyStatus)
      ensures r.Entry(service) == value
      ensures forall other :: other != service ==> r.Entry(other) == Entry(other)
    {
      match service
      case OpenAIService => this.(openai := value)
      case AnthropicService => this.(anthropic := value)
    }
  }

  /** Every entry is empty or the mask. */
  predicate Masked(s: KeyStatus) {
    forall service: Service :: s.Entry(service) == "" || s.Entry(service) == Mask
  }

  /** The initial state, before anything is loaded. */
  const Empty := KeyStatus("", "")

  /** The entry for a key or a `hasKey` answer: the mask when it is truthy. */
  function MaskFor(configured: bool): (m: string)
    ensures m == Mask <==> configured
    ensures m == "" <==> !configured
  {
    if configured then Mask else ""
  }

  /** `result.hasKey` of a `has` reply that resolved; an error reply has no `hasKey`. */
  function HasKey(e: Envelope<bool>): bool {
    e.Ok? && e.data == Some(true)
  }

  /**
   * `loadApiKeys`: asks `has` for OpenAI, then for Anthropic. If either
   * call rejects, the error is logged and the state stays as it was.
   */
  function Load(s: KeyStatus, openaiReply: Reply<bool>, anthropicReply: Reply<bool>): (r: KeyStatus)
    ensures Masked(s) ==> Masked(r)
    ensures openaiReply.Rejected? || anthropicReply.Rejected? ==> r == s
    ensures openaiReply.Resolved? && anthropicReply.Resolved? ==>
      && (r.Entry(OpenAIService) == Mask <==> HasKey(openaiReply.envelope))
      && (r.Entry(AnthropicService) == Mask <==> HasKey(anthropicReply.envelope))
  {
    match (openaiReply, anthropicReply)
    case (Resolved(o), Resolved(a)) => KeyStatus(MaskFor(HasKey(o)), MaskFor(HasKey(a)))
    case _ => s
  }

  /** `isConfigured(service)`: the entry is non-empty. */
  function IsConfigured(s: KeyStatus, service: Service): (b: bool)
    ensures Masked(s) ==> (b <==> s.Entry(service) == Mask)
  {
    s.Entry(service) != ""
  }

  /**
   * `setApiKey(service, key)`: sends the key to the vault, then masks the
   * entry if the key is non-empty. The reply's `success` flag is not looked
   * at: only a rejected call leaves the state unchanged and rethrows.
   */
  function SetApiKey(s: KeyStatus, service: Service, key: string, reply: Reply<()>): (r: Effect<KeyStatus>)
    ensures Masked(s) ==> Masked(r.state)
    ensures reply.Rejected? ==> r.state == s && r.thrown == Some(reply.thrown)
    ensures reply.Resolved? ==> r.thrown.None? && (r.state.Entry(service) == Mask <==> key != "")
    ensures forall other :: other != service ==> r.state.Entry(other) == s.Entry(other)
  {
    match reply
    case Rejected(t) => Effect(s, Some(t))
    case Resolved(_) => Effect(s.With(service, MaskFor(key != "")), None)
  }

  /** The request `clearApiKey` sends: the service with an empty key. */
  function ClearRequest(service: Service): (r: (string, string))
    ensures r.0 == service.Name() && r.1 == ""
  {
    (service.Name(), "")
  }

  /** `clearApiKey(service)`: sends '' and empties the entry, unless the call rejects. */
  function ClearApiKey(s: KeyStatus, service: Service, reply: Reply<()>): (r: Effect<KeyStatus>)
    ensures Masked(s) ==> Masked(r.state)
    ensures reply.Rejected? ==> r.state == s && r.thrown == Some(reply.thrown)
    ensures reply.Resolved? ==> r.thrown.None? && r.state.Entry(service) == ""
    ensures forall other :: other != service ==> r.state.Entry(other) == s.Entry(other)
  {
    match reply
    case Rejected(t) => Effect(s, Some(t))
    case Resolved(_) => Effect(s.With(service, ""), None)
  }

  /** Clearing behaves as setting the empty key. */
  lemma ClearIsSetEmpty(s: KeyStatus, service: Service, reply: Reply<()>)
    ensures ClearApiKey(s, service, reply) == SetApiKey(s, service, ClearRequest(service).1, reply)
  {
  }

  /**
   * End to end: a key set through the context into a working vault leaves
   * the entry masked exactly when the vault now reports a key for the
   * provider, and a reload reads the same answer back.
   */
  lemma {:induction false} SetAgreesWithVault(h: Vault.Host, kc: Vault.Keychain, s: KeyStatus, service: Service, key: string, iv: Bytes)
    requires Vault.Sound(h) && |iv| == Vault.IvLength
    ensures var (kc', env) := Vault.SetApiKeyCommand(h, kc, service.Name(), Some(key), iv, NoFault);
      var after := SetApiKey(s, service, key, Resolved(env)).state;
      && (after.Entry(service) == Mask <==> Vault.HasApiKey(h, kc', service.Name(), NoFault))
      && (Load(s, Resolved(Vault.HasApiKeyCommand(h, kc', "openai", NoFault)),
                  Resolved(Vault.HasApiKeyCommand(h, kc', "anthropic", NoFault))).Entry(service) == Mask
          <==> after.Entry(service) == Mask)
  {
    Vault.SetThenHas(h, kc, service.Name(), Some(key), iv);
  }
}

=== FILE: base64.dfy ===
/**
 * The base64 encoding of section 4 of RFC 4648 ("ABC...xyz0123456789+/",
 * padded with '='), which both the vault and the renderer's secure storage
 * use to turn byte strings into text.
 */
module Base64 {
  import opened Wrappers
  import opened Octets

  /** A character of the 64-character alphabet. */
  predicate IsDigit(c: char) {
    ('A' <= c <= 'Z') || ('a' <= c <= 'z') || ('0' <= c <= '9') || c == '+' || c == '/'
  }

  /** A character that can appear in encoded text: an alphabet character or the pad. */
  predicate IsBase64Char(c: char) {
    IsDigit(c) || c == '='
  }

  /** The alphabet character for the 6-bit value `v`. */
  function CharOf(v: int): (c: char)
    requires 0 <= v < 64
    ensures IsDigit(c)
  {
    if v < 26 then ('A' as int + v) as char
    else if v < 52 then ('a' as int + v - 26) as char
    else if v < 62 then ('0' as int + v - 52) as char
    else if v == 62 then '+'
    else '/'
  }

  /** The 6-bit value of an alphabet character. */
  function ValueOf(c: char): (v: int)
    requires IsDigit(c)
    ensures 0 <= v < 64 && CharOf(v) == c
  {
    if 'A' <= c <= 'Z' then c as int - 'A' as int
    else if 'a' <= c <= 'z' then c as int - 'a' as int + 26
    else if '0' <= c <= '9' then c as int - '0' as int + 52
    else if c == '+' then 62
    else 63
  }

  lemma ValueOfCharOf(v: int)
    requires 0 <= v < 64
    ensures ValueOf(CharOf(v)) == v
  {
  }

  /** Three bytes as four characters. */
  function EncodeBlock(b0: byte, b1: byte, b2: byte): (s: string)
    ensures |s| == 4 && IsDigit(s[0]) && IsDigit(s[1]) && IsDigit(s[2]) && IsDigit(s[3])
  {
    var x0, x1, x2 := b0 as int, b1 as int, b2 as int;
    [CharOf(x0 / 4), CharOf(x0 % 4 * 16 + x1 / 16), CharOf(x1 % 16 * 4 + x2 / 64), CharOf(x2 % 64)]
  }

  /** Encodes `b`; a final group of one or two bytes is padded with '='. */
  function Encode(b: Bytes): (s: string)
    ensures forall i :: 0 <= i < |s| ==> IsBase64Char(s[i])
    decreases |b|
  {
    if |b| == 0 then ""
    else if |b| == 1 then
      var x0 := b[0] as int;
      [CharOf(x0 / 4), CharOf(x0 % 4 * 16), '=', '=']
    else if |b| == 2 then
      var x0, x1 := b[0] as int, b[1] as int;
      [CharOf(x0 / 4), CharOf(x0 % 4 * 16 + x1 / 16), CharOf(x1 % 16 * 4), '=']
    else
      EncodeBlock(b[0], b[1], b[2]) + Encode(b[3..])
  }

  /** Four alphabet characters as three bytes. */
  function DecodeBlock(c0: char, c1: char, c2: char, c3: char): Bytes
    requires IsDigit(c0) && IsDigit(c1) && IsDigit(c2) && IsDigit(c3)
  {
    var v0, v1, v2, v3 := ValueOf(c0), ValueOf(c1), ValueOf(c2), ValueOf(c3);
    [(v0 * 4 + v1 / 16) as byte, (v1 % 16 * 16 + v2 / 4) as byte, (v2 % 4 * 64 + v3) as byte]
  }

  /** The last group of four characters, which may end in one or two pads. */
  function DecodeFinal(s: string): Option<Bytes>
    requires |s| == 4
  {
    if !IsDigit(s[0]) || !IsDigit(s[1]) then None
    else
      var v0, v1 := ValueOf(s[0]), ValueOf(s[1]);
      if s[2] == '=' && s[3] == '=' then Some([(v0 * 4 + v1 / 16) as byte])
      else if IsDigit(s[2]) && s[3] == '=' then
        var v2 := ValueOf(s[2]);
        Some([(v0 * 4 + v1 / 16) as byte, (v1 % 16 * 16 + v2 / 4) as byte])
      else if IsDigit(s[2]) && IsDigit(s[3]) then Some(DecodeBlock(s[0], s[1], s[2], s[3]))
      else None
  }

  /**
   * Strict decoding: the length must be a multiple of four, every character
   * must be in the alphabet, and pads may only end the last group.
   */
  function Decode(s: string): Option<Bytes>
    decreases |s|
  {
    if |s| == 0 then Some([])
    else if |s| < 4 then None
    else if |s| == 4 then DecodeFinal(s)
    else if IsDigit(s[0]) && IsDigit(s[1]) && IsDigit(s[2]) && IsDigit(s[3]) then
      match Decode(s[4..])
      case None => None
      case Some(rest) => Some(DecodeBlock(s[0], s[1], s[2], s[3]) + rest)
    else None
  }

  lemma BlockRoundTrip(b0: byte, b1: byte, b2: byte)
    ensures var s := EncodeBlock(b0, b1, b2); DecodeBlock(s[0], s[1], s[2], s[3]) == [b0, b1, b2]
  {
    var x0, x1, x2 := b0 as int, b1 as int, b2 as int;
    ValueOfCharOf(x0 / 4);
    ValueOfCharOf(x0 % 4 * 16 + x1 / 16);
    ValueOfCharOf(x1 % 16 * 4 + x2 / 64);
    ValueOfCharOf(x2 % 64);
    assert (x0 % 4 * 16 + x1 / 16) / 16 == x0 % 4;
    assert (x0 % 4 * 16 + x1 / 16) % 16 == x1 / 16;
    assert (x1 % 16 * 4 + x2 / 64) / 4 == x1 % 16;
    assert (x1 % 16 * 4 + x2 / 64) % 4 == x2 / 64;
  }

  lemma OneByteRoundTrip(b0: byte)
    ensures Decode(Encode([b0])) == Some([b0])
  {
    var x0 := b0 as int;
    ValueOfCharOf(x0 / 4);
    ValueOfCharOf(x0 % 4 * 16);
    var s := Encode([b0]);
    assert ValueOf(s[0]) == x0 / 4 && ValueOf(s[1]) == x0 % 4 * 16;
    assert DecodeFinal(s) == Some([(x0 / 4 * 4 + x0 % 4 * 16 / 16) as byte]);
  }

  /** The digits of a two-byte group give the two bytes back. */
  lemma PairDigits(x0: int, x1: int)
    requires 0 <= x0 < 256 && 0 <= x1 < 256
    ensures 0 <= x0 % 4 * 16 + x1 / 16 < 64 && 0 <= x1 % 16 * 4 < 64
    ensures x0 / 4 * 4 + (x0 % 4 * 16 + x1 / 16) / 16 == x0
    ensures (x0 % 4 * 16 + x1 / 16) % 16 * 16 + x1 % 16 * 4 / 4 == x1
  {
    assert (x0 % 4 * 16 + x1 / 16) / 16 == x0 % 4;
    assert (x0 % 4 * 16 + x1 / 16) % 16 == x1 / 16;
  }

  lemma TwoByteRoundTrip(b0: byte, b1: byte)
    ensures Decode(Encode([b0, b1])) == Some([b0, b1])
  {
    var x0, x1 := b0 as int, b1 as int;
    var v0, v1, v2 := x0 / 4, x0 % 4 * 16 + x1 / 16, x1 % 16 * 4;
    PairDigits(x0, x1);
    ValueOfCharOf(v0);
    ValueOfCharOf(v1);
    ValueOfCharOf(v2);
    var s := Encode([b0, b1]);
    assert ValueOf(s[0]) == v0 && ValueOf(s[1]) == v1 && ValueOf(s[2]) == v2;
    assert DecodeFinal(s) == Some([(v0 * 4 + v1 / 16) as byte, (v1 % 16 * 16 + v2 / 4) as byte]);
  }

  /** Decoding undoes encoding, for every byte string. */
  lemma {:induction false} DecodeEncode(b: Bytes)
    ensures Decode(Encode(b)) == Some(b)
    decreases |b|
  {
    if |b| == 1 {
      OneByteRoundTrip(b[0]);
      assert b == [b[0]];
    } else if |b| == 2 {
      TwoByteRoundTrip(b[0], b[1]);
      assert b == [b[0], b[1]];
    } else if |b| >= 3 {
      DecodeEncode(b[3..]);
      DecodeEncodeStep(b);
    }
  }

  /** One inductive step of `DecodeEncode`: the first three bytes come back from the first group. */
  lemma DecodeEncodeStep(b: Bytes)
    requires |b| >= 3
    requires Decode(Encode(b[3..])) == Some(b[3..])
    ensures Decode(Encode(b)) == Some(b)
  {
    var head := EncodeBlock(b[0], b[1], b[2]);
    var tail := Encode(b[3..]);
    EncodeUnfold(b);
    BlockRoundTrip(b[0], b[1], b[2]);
    DecodeGroup(head, tail);
    FirstThree(b);
  }

  lemma EncodeUnfold(b: Bytes)
    requires |b| >= 3
    ensures Encode(b) == EncodeBlock(b[0], b[1], b[2]) + Encode(b[3..])
  {
  }

  lemma FirstThree(b: Bytes)
    requires |b| >= 3
    ensures b == [b[0], b[1], b[2]] + b[3..]
  {
  }

  /** A leading group of four alphabet characters decodes on its own. */
  lemma DecodeGroup(h: string, t: string)
    requires |h| == 4 && IsDigit(h[0]) && IsDigit(h[1]) && IsDigit(h[2]) && IsDigit(h[3])
    requires Decode(t).Some?
    ensures Decode(h + t) == Some(DecodeBlock(h[0], h[1], h[2], h[3]) + Decode(t).value)
  {
    var s := h + t;
    if |t| == 0 {
      assert s == h;
      assert DecodeBlock(h[0], h[1], h[2], h[3]) + [] == DecodeBlock(h[0], h[1], h[2], h[3]);
    } else {
      assert s[4..] == t;
      assert s[0] == h[0] && s[1] == h[1] && s[2] == h[2] && s[3] == h[3];
    }
  }

  /** Encoded text never contains the separators the packings use. */
  lemma EncodeAvoids(b: Bytes)
    ensures '.' !in Encode(b) && ':' !in Encode(b)
  {
  }
}

=== FILE: character_hook.dfy ===
/**
 * The character-detail hook (src/renderer/hooks/useCharacter.ts): the loaded
 * character, the edit form over its five editable fields, and the fetch,
 * edit, save and reset transitions. The service calls are collaborators:
 * `fetched` is what `getCharacter` settles to, and `saveFault` says whether
 * `updateCharacter` rejects.
 */
module CharacterHook {
  import opened Wrappers
  import opened Text
  import opened Envelopes
  import opened Characters

  const FetchFailed := "Failed to fetch character"
  const UpdateFailed := "Failed to update character"

  datatype HookState = HookState(
    character: Option<Character>,
    loading: bool,
    error: Option<Thrown>,
    editing: bool,
    form: CharacterForm)

  const EmptyForm := CharacterForm("", "", "", "", "")

  /** The state on first render: nothing loaded, loading, not editing, an empty form. */
  const Initial := HookState(None, true, None, false, EmptyForm)

  /** `err instanceof Error ? err : new Error(fallback)`. */
  function AsError(t: Thrown, fallback: string): (e: Thrown)
    ensures e.ErrorValue?
    ensures t.ErrorValue? ==> e == t
    ensures t.OtherValue? ==> e.message == fallback
  {
    match t
    case ErrorValue(_) => t
    case OtherValue => ErrorValue(fallback)
  }

  /** The form shows exactly the editable fields of the character. */
  predicate Shows(form: CharacterForm, c: Character) {
    form == FormOf(c)
  }

  /**
   * The effect on `characterId`. Without a truthy id nothing is fetched and
   * loading stops. Otherwise a fetched character becomes the state and is
   * copied into the form; a rejection records the error and keeps the rest.
   * Either way loading is over.
   */
  function Fetch(s: HookState, characterId: Option<string>, fetched: Result<Character, Thrown>): (r: HookState)
    ensures !r.loading && r.editing == s.editing
    ensures !Truthy(characterId) ==> r == s.(loading := false)
    ensures Truthy(characterId) && fetched.Success? ==>
      && r.character == Some(fetched.value)
      && Shows(r.form, fetched.value)
      && r.error.None?
    ensures Truthy(characterId) && fetched.Failure? ==>
      && r.character == s.character && r.form == s.form
      && r.error == Some(AsError(fetched.error, FetchFailed))
  {
    if !Truthy(characterId) then s.(loading := false)
    else
      var started := s.(loading := true, error := None);
      var settled :=
        match fetched
        case Success(c) => started.(character := Some(c), form := FormOf(c))
        case Failure(t) => started.(error := Some(AsError(t, FetchFailed)));
      settled.(loading := false)
  }

  /** `updateFormField(field, value)`: the named field takes the value. */
  function UpdateFormField(s: HookState, field: Field, value: string): (r: HookState)
    ensures r.form.Get(field) == value
    ensures forall other :: other != field ==> r.form.Get(other) == s.form.Get(other)
    ensures r.(form := s.form) == s
  {
    var f := s.form;
    var f' :=
      match field
      case Name => f.(name := value)
      case Description => f.(description := value)
      case Traits => f.(traits := value)
      case Values => f.(values := value)
      case VoicePatterns => f.(voicePatterns := value);
    s.(form := f')
  }

  /** The character with the form's five fields written over its own. */
  function Overlay(c: Character, form: CharacterForm): (r: Character)
    ensures Shows(form, r)
    ensures r.id == c.id && r.project == c.project && r.created == c.created
    ensures r.memories == c.memories && r.relationships == c.relationships
  {
    c.(name := form.name, description := form.description, traits := form.traits,
       values := form.values, voicePatterns := form.voicePatterns)
  }

  /**
   * `saveCharacter()`. Without a character or a truthy id it does nothing
   * and sends nothing. Otherwise it sends `updateCharacter` the id and the
   * character overlaid with the form; the echoed record becomes the
   * character and editing ends, or a rejection records the error. Either
   * way loading is over. Returns the new state and the request, if any.
   */
  function SaveCharacter(s: HookState, characterId: Option<string>, saveFault: Option<Thrown>): (r: (HookState, Option<(string, Character)>))
    ensures r.1.None? <==> s.character.None? || !Truthy(characterId)
    ensures r.1.None? ==> r.0 == s
    ensures r.1.Some? ==>
      && r.1.value == (characterId.value, Overlay(s.character.value, s.form))
      && !r.0.loading && r.0.form == s.form
    ensures r.1.Some? && saveFault.None? ==>
      && r.0.character.Some? && r.0.character.value.id == characterId.value
      && Shows(s.form, r.0.character.value)
      && r.0.character.value.memories == s.character.value.memories
      && !r.0.editing && r.0.error.None?
    ensures r.1.Some? && saveFault.Some? ==>
      && r.0.character == s.character && r.0.editing == s.editing
      && r.0.error == Some(AsError(saveFault.value, UpdateFailed))
  {
    if s.character.None? || !Truthy(characterId) then (s, None)
    else
      var id := characterId.value;
      var sent := Overlay(s.character.value, s.form);
      var started := s.(loading := true, error := None);
      var settled :=
        match saveFault
        case None => started.(character := Some(UpdateCharacter(id, sent)), editing := false)
        case Some(t) => started.(error := Some(AsError(t, UpdateFailed)));
      (settled.(loading := false), Some((id, sent)))
  }

  /** `resetForm()`: the form shows the current character again; without one nothing changes. */
  function ResetForm(s: HookState): (r: HookState)
    ensures s.character.None? ==> r == s
    ensures s.character.Some? ==> Shows(r.form, s.character.value)
    ensures r.(form := s.form) == s
  {
    match s.character
    case None => s
    case Some(c) => s.(form := FormOf(c))
  }

  /** Editing a field and then resetting gives back the loaded character's fields. */
  lemma {:induction false} ResetUndoesEdits(s: HookState, field: Field, value: string)
    requires s.character.Some?
    ensures ResetForm(UpdateFormField(s, field, value)) == ResetForm(s)
  {
  }

  /** After a successful save, resetting the form changes nothing: the saved character carries the form. */
  lemma {:induction false} SavedFormSurvivesReset(s: HookState, characterId: Option<string>)
    requires s.character.Some? && Truthy(characterId)
    ensures var saved := SaveCharacter(s, characterId, None).0;
      ResetForm(saved) == saved
  {
  }

  /** A fetch of the service's character for '1' puts Captain Elara in the name field, and only for '1'. */
  lemma {:induction false} FetchShowsServiceName(s: HookState, catalog: Catalog, id: string)
    requires id != ""
    ensures var r := Fetch(s, Some(id), Success(GetCharacterFrom(catalog, id)));
      r.form.name == "Captain Elara" <==> id == "1"
  {
    var c := GetCharacterFrom(catalog, id);
    var r := Fetch(s, Some(id), Success(c));
    assert r.form.Get(Name) == c.name;
    NameById(catalog, id);
  }
}

=== FILE: character_manager.dfy ===
/**
 * The character list page (src/renderer/pages/CharacterManager.tsx): three
 * built-in cards, a case-insensitive search over name, description and
 * traits, and a dialog that appends a new card. The clock is a parameter:
 * `now` is `Date.now().toString()` and `isoNow` is `new Date().toISOString()`.
 */
module CharacterManager {
  import opened Text

  datatype Card = Card(id: string, name: string, description: string, project: string, traits: string, created: string)

  /** The dialog's fields. */
  datatype NewCharacter = NewCharacter(name: string, description: string, project: string, traits: string)

  datatype ManagerState = ManagerState(characters: seq<Card>, searchTerm: string, showCreateModal: bool, newCharacter: NewCharacter)

  const DefaultProject := "Space Opera Series"

  /** The dialog's fields when it is fresh: all empty but the project. */
  const BlankNew := NewCharacter("", "", DefaultProject, "")

  const InitialCards := [
    Card("1", "Captain Elara", "Veteran starship captain with a troubled past", "Space Opera Series",
         "Determined, Loyal, Strategic", "2025-04-15"),
    Card("2", "Wizard Thorne", "Reclusive mage with ancient knowledge", "Fantasy Trilogy",
         "Wise, Mysterious, Powerful", "2025-04-20"),
    Card("3", "Dr. Nova", "Brilliant scientist pushing ethical boundaries", "Space Opera Series",
         "Intelligent, Ambitious, Conflicted", "2025-05-01")]

  /** The page on first render. */
  const Initial := ManagerState(InitialCards, "", false, BlankNew)

  /** The search predicate: the lower-cased term occurs in the lower-cased name, description or traits. */
  predicate Matches(c: Card, term: string) {
    var t := Lower(term);
    Contains(Lower(c.name), t) || Contains(Lower(c.description), t) || Contains(Lower(c.traits), t)
  }

  /** `sub` is `s` with some elements dropped and the rest in their order. */
  predicate IsSubsequence<T(==)>(sub: seq<T>, s: seq<T>)
    decreases |s|
  {
    if |sub| == 0 then true
    else if |s| == 0 then false
    else (sub[0] == s[0] && IsSubsequence(sub[1..], s[1..])) || IsSubsequence(sub, s[1..])
  }

  /**
   * `filteredCharacters`: the cards the term matches, in list order; a card
   * is shown exactly when it matches.
   */
  function Filter(cards: seq<Card>, term: string): (r: seq<Card>)
    ensures IsSubsequence(r, cards)
    ensures forall c :: c in r <==> c in cards && Matches(c, term)
    decreases |cards|
  {
    if |cards| == 0 then []
    else
      var rest := Filter(cards[1..], term);
      assert forall c :: c in cards <==> c == cards[0] || c in cards[1..];
      if Matches(cards[0], term) then
        assert ([cards[0]] + rest)[1..] == rest;
        [cards[0]] + rest
      else
        rest
  }

  /** Every string contains its own empty lower case. */
  lemma EmptyTermMatches(c: Card)
    ensures Matches(c, "")
  {
    assert Lower("") == "";
    ContainsEmpty(Lower(c.name));
  }

  /** An empty search keeps every card. */
  lemma {:induction false} EmptyTermKeepsAll(cards: seq<Card>)
    ensures Filter(cards, "") == cards
    decreases |cards|
  {
    if |cards| > 0 {
      EmptyTermMatches(cards[0]);
      EmptyTermKeepsAll(cards[1..]);
      assert [cards[0]] + cards[1..] == cards;
    }
  }

  /** The search ignores ASCII case in the term. */
  lemma {:induction false} FilterIgnoresTermCase(cards: seq<Card>, term: string)
    ensures Filter(cards, Lower(term)) == Filter(cards, term)
    decreases |cards|
  {
    LowerIdempotent(term);
    if |cards| > 0 {
      FilterIgnoresTermCase(cards[1..], term);
    }
  }

  /** The Create button is disabled exactly when the name is empty; a name of spaces is accepted. */
  predicate CreateDisabled(f: NewCharacter) {
    f.name == ""
  }

  /** The card `handleCreateCharacter` builds: the dialog's fields, the clock's id and the ISO date's day. */
  function NewCard(f: NewCharacter, now: string, isoNow: string): (c: Card)
    ensures c.id == now
    ensures c.name == f.name && c.description == f.description && c.project == f.project && c.traits == f.traits
    ensures 'T' !in c.created && |c.created| <= |isoNow| && isoNow[..|c.created|] == c.created
    ensures |c.created| < |isoNow| ==> isoNow[|c.created|] == 'T'
  {
    Card(now, f.name, f.description, f.project, f.traits, BeforeFirst(isoNow, 'T'))
  }

  /**
   * `handleCreateCharacter`: appends the new card after the existing ones,
   * resets the dialog and closes it; the search is untouched.
   */
  function HandleCreate(s: ManagerState, now: string, isoNow: string): (r: ManagerState)
    ensures |r.characters| == |s.characters| + 1
    ensures r.characters[..|s.characters|] == s.characters
    ensures r.characters[|s.characters|] == NewCard(s.newCharacter, now, isoNow)
    ensures r.newCharacter == BlankNew && !r.showCreateModal
    ensures r.searchTerm == s.searchTerm
  {
    ManagerState(s.characters + [NewCard(s.newCharacter, now, isoNow)], s.searchTerm, false, BlankNew)
  }

  /**
   * A new card is listed under the current search exactly when it matches,
   * after every card that was listed before.
   */
  lemma {:induction false} CreatedCardListedLast(s: ManagerState, now: string, isoNow: string)
    ensures var r := HandleCreate(s, now, isoNow);
      var c := NewCard(s.newCharacter, now, isoNow);
      Filter(r.characters, r.searchTerm) ==
        Filter(s.characters, s.searchTerm) + (if Matches(c, s.searchTerm) then [c] else [])
  {
    var c := NewCard(s.newCharacter, now, isoNow);
    assert HandleCreate(s, now, isoNow).characters == s.characters + [c];
    FilterAppend(s.characters, c, s.searchTerm);
  }

  lemma {:induction false} FilterAppend(cards: seq<Card>, c: Card, term: string)
    ensures Filter(cards + [c], term) == Filter(cards, term) + (if Matches(c, term) then [c] else [])
    decreases |cards|
  {
    if |cards| == 0 {
      assert cards + [c] == [c];
      assert [c][1..] == [];
    } else {
      assert (cards + [c])[1..] == cards[1..] + [c];
      FilterAppend(cards[1..], c, term);
    }
  }
}

=== FILE: characters.dfy ===
/**
 * The renderer's character records (src/renderer/types/character.ts) and the
 * stand-in character service (src/renderer/services/characterService.ts),
 * which answers every id with one of three fixed characters and echoes
 * updates back under the requested id.
 */
module Characters {
  datatype MemoryKind = Episodic | Semantic | Emotional

  datatype CharacterMemory = CharacterMemory(id: string, content: string, kind: MemoryKind, importance: int, created: string)

  datatype Relationship = Relationship(id: string, name: string, kind: string, description: string)

  datatype Character = Character(
    id: string,
    name: string,
    description: string,
    traits: string,
    values: string,
    voicePatterns: string,
    project: string,
    created: string,
    memories: seq<CharacterMemory>,
    relationships: seq<Relationship>)

  /** The five fields the edit form works on. */
  datatype Field = Name | Description | Traits | Values | VoicePatterns

  /** `CharacterFormState`. */
  datatype CharacterForm = CharacterForm(name: string, description: string, traits: string, values: string, voicePatterns: string) {
    function Get(field: Field): string {
      match field
      case Name => name
      case Description => description
      case Traits => traits
      case Values => values
      case VoicePatterns => voicePatterns
    }
  }

  /** The five editable fields of a character, read as a form. */
  function FormOf(c: Character): CharacterForm {
    CharacterForm(c.name, c.description, c.traits, c.values, c.voicePatterns)
  }

  const SpaceOpera := "Space Opera Series"
  const FantasyTrilogy := "Fantasy Trilogy"

  /** The service's three stock characters: '1', '2', and everyone else. */
  datatype Stock = Elara | Thorne | Nova

  function StockOf(id: string): (k: Stock)
    ensures k == Elara <==> id == "1"
    ensures k == Thorne <==> id == "2"
  {
    if id == "1" then Elara else if id == "2" then Thorne else Nova
  }

  /**
   * The display texts of a stock character: everything `getCharacter` fills
   * in besides the id, name, project, creation date and the memories' and
   * relationships' ids, kinds, importances and dates.
   */
  datatype StockTexts = StockTexts(
    description: string,
    traits: string,
    values: string,
    voicePatterns: string,
    memories: (string, string, string),
    relationships: (Relationship, Relationship))

  /** Which texts each stock character gets. */
  type Catalog = Stock -> StockTexts

  /** The texts characterService.ts writes out for its three characters. */
  function ServiceTexts(k: Stock): StockTexts {
    match k
    case Elara =>
      StockTexts(
        "Veteran starship captain with a troubled past",
        "Determined, Loyal, Strategic",
        "Honor, Duty, Redemption",
        "Direct, authoritative, occasionally uses naval terminology",
        ("Lost my first ship in the Battle of Proxima",
         "Grew up on a colony world with limited resources",
         "Believes in leading from the front"),
        (Relationship("1", "Dr. Nova", "Colleague", "Uneasy alliance with the ship's scientist"),
         Relationship("2", "Admiral Chen", "Superior", "Former mentor turned political adversary")))
    case Thorne =>
      StockTexts(
        "Reclusive mage with ancient knowledge",
        "Wise, Mysterious, Powerful",
        "Knowledge, Balance, Tradition",
        "Speaks in riddles, formal, uses archaic terms",
        ("Apprenticed under the Archmage for 20 years",
         "Survived the Mage Wars by hiding in the Forgotten Forest",
         "Distrusts political authority"),
        (Relationship("1", "Ranger Ash", "Former Student", "Taught survival magic to the ranger"),
         Relationship("2", "Dark Sorcerer Vex", "Enemy", "Ancient rival seeking forbidden knowledge")))
    case Nova =>
      StockTexts(
        "Brilliant scientist pushing ethical boundaries",
        "Intelligent, Ambitious, Conflicted",
        "Progress, Truth, Innovation",
        "Precise, technical, uses scientific jargon",
        ("Published groundbreaking research on quantum biology",
         "Ethical committee rejected my proposal for human enhancement",
         "Values scientific progress above conventional ethics"),
        (Relationship("1", "Captain Elara", "Colleague", "Respects the captain's leadership but questions her caution"),
         Relationship("2", "Corporate Director Zane", "Antagonist", "Funds research but has hidden agenda")))
  }

  function StockName(k: Stock): string {
    match k
    case Elara => "Captain Elara"
    case Thorne => "Wizard Thorne"
    case Nova => "Dr. Nova"
  }

  function StockCreated(k: Stock): string {
    match k
    case Elara => "2025-04-15"
    case Thorne => "2025-04-20"
    case Nova => "2025-05-01"
  }

  /**
   * `getCharacter(id)` over a catalogue of texts: the stock character the id
   * selects, carrying the requested id, with the project chosen by the id.
   */
  function GetCharacterFrom(catalog: Catalog, id: string): (c: Character)
    ensures c.id == id
  {
    var k := StockOf(id);
    var t := catalog(k);
    Character(
      id, StockName(k), t.description, t.traits, t.values, t.voicePatterns,
      if id == "1" || id == "3" then SpaceOpera else FantasyTrilogy,
      StockCreated(k),
      [ CharacterMemory("1", t.memories.0, Episodic, 5, "2025-05-01"),
        CharacterMemory("2", t.memories.1, Episodic, 4, "2025-05-02"),
        CharacterMemory("3", t.memories.2, Semantic, 3, "2025-05-03") ],
      [ t.relationships.0.(id := "1"), t.relationships.1.(id := "2") ])
  }

  /**
   * `getCharacter(id)` with the texts of characterService.ts; the lemmas
   * below hold of it as of any catalogue.
   */
  function GetCharacter(id: string): (c: Character)
    ensures c.id == id
  {
    GetCharacterFrom(ServiceTexts, id)
  }

  /**
   * Which character an id gets: '1' Captain Elara, '2' Wizard Thorne, any
   * other id Dr. Nova, whatever the texts.
   */
  lemma {:induction false} NameById(catalog: Catalog, id: string)
    ensures GetCharacterFrom(catalog, id).name == "Captain Elara" <==> id == "1"
    ensures GetCharacterFrom(catalog, id).name == "Wizard Thorne" <==> id == "2"
    ensures GetCharacterFrom(catalog, id).name == "Dr. Nova" <==> id != "1" && id != "2"
  {
    assert "Captain Elara"[0] != "Wizard Thorne"[0];
  }

  /** The project is the space opera exactly for ids '1' and '3', the fantasy trilogy for every other. */
  lemma {:induction false} ProjectById(catalog: Catalog, id: string)
    ensures GetCharacterFrom(catalog, id).project == SpaceOpera <==> id == "1" || id == "3"
    ensures GetCharacterFrom(catalog, id).project == FantasyTrilogy <==> id != "1" && id != "3"
  {
    assert SpaceOpera != FantasyTrilogy;
  }

  /**
   * Whatever the id, three memories of importance 5, 4 and 3 in that order,
   * two episodic then one semantic, with ids '1' to '3', and two
   * relationships with ids '1' and '2'.
   */
  lemma {:induction false} MemoriesById(catalog: Catalog, id: string)
    ensures var ms := GetCharacterFrom(catalog, id).memories;
      && |ms| == 3
      && ms[0].importance == 5 && ms[1].importance == 4 && ms[2].importance == 3
      && ms[0].kind == Episodic && ms[1].kind == Episodic && ms[2].kind == Semantic
      && ms[0].id == "1" && ms[1].id == "2" && ms[2].id == "3"
    ensures var rs := GetCharacterFrom(catalog, id).relationships;
      |rs| == 2 && rs[0].id == "1" && rs[1].id == "2"
  {
  }

  /**
   * The project is chosen by the id ('1' or '3') while every other field is
   * chosen by the stock character, so an id other than '1', '2' or '3' gets
   * Dr. Nova filed under the fantasy project, unlike id '3'.
   */
  lemma {:induction false} OtherIdsGetNovaInFantasy(catalog: Catalog, id: string)
    requires id != "1" && id != "2" && id != "3"
    ensures GetCharacterFrom(catalog, id).name == GetCharacterFrom(catalog, "3").name
    ensures GetCharacterFrom(catalog, id).project == FantasyTrilogy != GetCharacterFrom(catalog, "3").project
  {
    ProjectById(catalog, id);
    ProjectById(catalog, "3");
  }

  /** Two ids that select the same stock character and project get the same record apart from the id. */
  lemma {:induction false} SameStockSameRecord(catalog: Catalog, a: string, b: string)
    requires StockOf(a) == StockOf(b)
    requires (a == "1" || a == "3") == (b == "1" || b == "3")
    ensures GetCharacterFrom(catalog, a).(id := b) == GetCharacterFrom(catalog, b)
  {
  }

  /**
   * `updateCharacter(id, data)`: the data echoed back with its id replaced
   * by the requested one.
   */
  function UpdateCharacter(id: string, data: Character): (r: Character)
    ensures r.id == id
    ensures r.(id := data.id) == data
    ensures FormOf(r) == FormOf(data)
  {
    data.(id := id)
  }

  /** Updating twice under the same id is updating once. */
  lemma UpdateIdempotent(id: string, data: Character)
    ensures UpdateCharacter(id, UpdateCharacter(id, data)) == UpdateCharacter(id, data)
  {
  }
}

=== FILE: conversation.dfy ===
/**
 * The conversation page (src/renderer/pages/Conversation.tsx): a message
 * list, the input box, and a canned reply chosen by keywords. The reply's
 * delay is left out: `Send` is the click and `Respond` is the timer firing,
 * which may happen after further sends.
 */
module Conversation {
  import opened Wrappers
  import opened Text

  datatype Role = User | CharacterRole

  datatype Message = Message(id: int, role: Role, content: string)

  datatype ChatState = ChatState(messages: seq<Message>, newMessage: string, isProcessing: bool)

  const InitialMessages := [
    Message(1, User, "Tell me about your latest mission, Captain Elara."),
    Message(2, CharacterRole, "We've been patrolling the outer rim for the past three cycles. There have been reports of unusual activity near the Proxima Nebula. I've ordered long-range scans, but so far nothing conclusive. The crew is on edge though - they can feel something's not right out here."),
    Message(3, User, "Do you think it could be related to your previous encounter with the Void Collective?"),
    Message(4, CharacterRole, "That thought has crossed my mind more than once. The Void Collective doesn't leave survivors, and we escaped by the skin of our teeth last time. If they've found us again... well, let's just say I've been running battle drills twice as often. I won't lose another ship, not to them.")]

  const Initial := ChatState(InitialMessages, "", false)

  /** Message ids count up from 1 in list order. */
  predicate WellNumbered(ms: seq<Message>) {
    forall i :: 0 <= i < |ms| ==> ms[i].id == i + 1
  }

  /**
   * The click on Send. A message that is empty after trimming changes
   * nothing and schedules nothing. Otherwise the text is appended as a user
   * message numbered one past the list's length, the input is cleared, and
   * the text is returned for the reply that is now pending.
   */
  function Send(s: ChatState): (r: (ChatState, Option<string>))
    ensures r.1.None? <==> AllWhite(s.newMessage)
    ensures r.1.None? ==> r.0 == s
    ensures r.1.Some? ==>
      && r.1.value == s.newMessage
      && r.0.messages == s.messages + [Message(|s.messages| + 1, User, s.newMessage)]
      && r.0.newMessage == "" && r.0.isProcessing
  {
    BlankIffAllWhite(s.newMessage);
    if IsBlank(s.newMessage) then (s, None)
    else (ChatState(s.messages + [Message(|s.messages| + 1, User, s.newMessage)], "", true), Some(s.newMessage))
  }

  /** Which canned reply a message gets. */
  datatype Topic = MissionTopic | CrewTopic | VoidTopic | PastTopic | Unclear

  /**
   * The keyword rule on the lower-cased message: 'mission' or 'nebula' first,
   * then 'crew' or 'ship', then 'void' or 'collective', then 'past' or
   * 'history'; otherwise the request to clarify.
   */
  function TopicOf(message: string): (t: Topic)
    ensures var m := Lower(message);
      && (t == MissionTopic <==> Contains(m, "mission") || Contains(m, "nebula"))
      && (t == CrewTopic <==>
            !(Contains(m, "mission") || Contains(m, "nebula")) && (Contains(m, "crew") || Contains(m, "ship")))
      && (t == VoidTopic <==>
            !(Contains(m, "mission") || Contains(m, "nebula")) && !(Contains(m, "crew") || Contains(m, "ship")) &&
            (Contains(m, "void") || Contains(m, "collective")))
      && (t == PastTopic <==>
            !(Contains(m, "mission") || Contains(m, "nebula")) && !(Contains(m, "crew") || Contains(m, "ship")) &&
            !(Contains(m, "void") || Contains(m, "collective")) && (Contains(m, "past") || Contains(m, "history")))
  {
    var m := Lower(message);
    if Contains(m, "mission") || Contains(m, "nebula") then MissionTopic
    else if Contains(m, "crew") || Contains(m, "ship") then CrewTopic
    else if Contains(m, "void") || Contains(m, "collective") then VoidTopic
    else if Contains(m, "past") || Contains(m, "history") then PastTopic
    else Unclear
  }

  /** The reply text of each topic. */
  function ReplyText(t: Topic): string {
    match t
    case MissionTopic => "The mission is proceeding according to protocol, though I've ordered additional security measures. Something about this region of space feels wrong - call it captain's intuition. We've detected unusual energy signatures that don't match any known species or phenomena."
    case CrewTopic => "The crew is performing admirably under the circumstances. Tension is high, but that's to be expected on the frontier. The Stellar Horizon might not be the newest vessel in the fleet, but she's got heart. We've been through worse together."
    case VoidTopic => "The Void Collective... *pauses* We lost good people when they ambushed us near Tau Ceti. Their technology was unlike anything we'd encountered. If they're back, we need to alert Command immediately. The entire sector could be at risk."
    case PastTopic => "My past isn't something I discuss freely. The colony where I grew up was... challenging. Resources were scarce, authority was corrupt. It taught me to rely on myself and to value those who prove their loyalty. It's why I run such a tight ship now."
    case Unclear => "I'm not sure I understand what you're asking. Could you clarify?"
  }

  /** The reply a sent message gets. */
  function Reply(sent: string): string {
    ReplyText(TopicOf(sent))
  }

  /**
   * The timer firing with its reply (`Reply` of the sent text): the reply is
   * appended as a character message numbered one past the list's length at
   * that moment, and processing ends.
   */
  function Respond(s: ChatState, reply: string): (r: ChatState)
    ensures |r.messages| == |s.messages| + 1 && r.messages[..|s.messages|] == s.messages
    ensures r.messages[|s.messages|] == Message(|s.messages| + 1, CharacterRole, reply)
    ensures r.newMessage == s.newMessage && !r.isProcessing
  {
    s.(messages := s.messages + [Message(|s.messages| + 1, CharacterRole, reply)], isProcessing := false)
  }

  /** The opening conversation is numbered 1 to 4. */
  lemma InitialWellNumbered()
    ensures WellNumbered(Initial.messages)
  {
  }

  /** Sending keeps the numbering. */
  lemma {:induction false} SendKeepsNumbering(s: ChatState)
    requires WellNumbered(s.messages)
    ensures WellNumbered(Send(s).0.messages)
  {
    var ms := Send(s).0.messages;
    if Send(s).1.Some? {
      assert forall i :: 0 <= i < |s.messages| ==> ms[i] == s.messages[i];
    }
  }

  /** A reply keeps the numbering, whenever it fires. */
  lemma {:induction false} RespondKeepsNumbering(s: ChatState, reply: string)
    requires WellNumbered(s.messages)
    ensures WellNumbered(Respond(s, reply).messages)
  {
    var ms := Respond(s, reply).messages;
    assert forall i :: 0 <= i < |s.messages| ==> ms[i] == ms[..|s.messages|][i];
  }

  /**
   * A send answered before anything else happens adds exactly the user's
   * message and the reply, numbered on from the list.
   */
  lemma {:induction false} SendThenRespond(s: ChatState, reply: string)
    requires !AllWhite(s.newMessage)
    ensures var (sent, pending) := Send(s);
      && pending == Some(s.newMessage)
      && Respond(sent, reply).messages ==
           s.messages + [Message(|s.messages| + 1, User, s.newMessage),
                         Message(|s.messages| + 2, CharacterRole, reply)]
  {
    var (sent, pending) := Send(s);
    var r := Respond(sent, reply);
    assert r.messages == sent.messages + [Message(|sent.messages| + 1, CharacterRole, reply)];
  }

  /** Any run of sends and replies from a well-numbered list leaves ids distinct. */
  lemma {:induction false} WellNumberedDistinct(ms: seq<Message>)
    requires WellNumbered(ms)
    ensures forall i, j :: 0 <= i < j < |ms| ==> ms[i].id != ms[j].id
  {
  }

  /** A message that mentions both a mission and the crew gets the mission reply. */
  lemma MissionBeatsCrew(message: string)
    requires Contains(Lower(message), "mission") && Contains(Lower(message), "ship")
    ensures TopicOf(message) == MissionTopic
  {
  }
}

=== FILE: envelopes.dfy ===
/**
 * What crosses the process boundary: the `{success, data | error}` reply of
 * a command handler, and what a collaborator (credential store, ORM, IPC)
 * throws.
 */
module Envelopes {
  import opened Wrappers

  /** A thrown value: an `Error` carrying a message, or anything else. */
  datatype Thrown = ErrorValue(message: string) | OtherValue

  /** `error instanceof Error ? error.message : 'Unknown error'`. */
  function Describe(t: Thrown): string {
    match t
    case ErrorValue(msg) => msg
    case OtherValue => "Unknown error"
  }

  /** `error.message`, which is undefined for a thrown value that is not an `Error`. */
  function MessageOf(t: Thrown): Option<string> {
    match t
    case ErrorValue(msg) => Some(msg)
    case OtherValue => None
  }

  /**
   * `{success: true, data}` (with `data` omitted for side-effect commands) or
   * `{success: false, error}` (with `error` undefined when the thrown value had no message).
   */
  datatype Envelope<T> = Ok(data: Option<T>) | Err(error: Option<string>)

  /**
   * Which collaborator call of one operation throws, counting from 0 in the
   * order the operation makes them; `NoFault` when every call succeeds.
   */
  datatype Fault = NoFault | FailAt(call: nat, thrown: Thrown) {
    predicate Throws(k: nat) {
      FailAt? && call == k
    }
  }

  /** The state an operation leaves behind and what it threw, if anything. */
  datatype Effect<S> = Effect(state: S, thrown: Option<Thrown>)

  /**
   * What an `ipcRenderer.invoke` call gives the renderer: the handler's
   * reply, or a rejection (no bridge, a handler that threw).
   */
  datatype Reply<T> = Resolved(envelope: Envelope<T>) | Rejected(thrown: Thrown)
}

=== FILE: named_form.dfy ===
/**
 * The name-and-description dialog shared in shape by the project and the
 * timeline forms: two fields, a required name, and an asynchronous
 * `onSubmit(name, description)` whose rejection is shown as the form error.
 */
module NamedForm {
  import opened Wrappers
  import opened Text
  import opened Envelopes

  const SubmissionFailed := "An error occurred during submission."

  datatype FormState = FormState(name: string, description: string, error: Option<string>)

  const Blank := FormState("", "", None)

  /** `handleChange`: only 'name' and 'description' are written. */
  function HandleChange(s: FormState, field: string, value: string): (r: FormState)
    ensures field == "name" ==> r == s.(name := value)
    ensures field == "description" ==> r == s.(description := value)
    ensures field != "name" && field != "description" ==> r == s
  {
    if field == "name" then s.(name := value)
    else if field == "description" then s.(description := value)
    else s
  }

  /** The form error for a rejected submission: `error.message || default`. */
  function RejectionMessage(t: Thrown): (m: string)
    ensures Truthy(MessageOf(t)) ==> m == t.message
    ensures !Truthy(MessageOf(t)) ==> m == SubmissionFailed
  {
    if Truthy(MessageOf(t)) then MessageOf(t).value else SubmissionFailed
  }

  /**
   * `handleSubmit` with the message for a blank name. `outcome` is what the
   * `onSubmit` promise does: `None` when it resolves, the thrown value when
   * it rejects. Returns the new state and the arguments `onSubmit` got.
   */
  function HandleSubmit(s: FormState, nameEmpty: string, outcome: Option<Thrown>): (r: (FormState, Option<(string, string)>))
    ensures r.0.name == s.name && r.0.description == s.description
    ensures AllWhite(s.name) ==> r == (s.(error := Some(nameEmpty)), None)
    ensures !AllWhite(s.name) ==> r.1 == Some((s.name, s.description))
    ensures !AllWhite(s.name) && outcome.None? ==> r.0.error.None?
    ensures !AllWhite(s.name) && outcome.Some? ==> r.0.error == Some(RejectionMessage(outcome.value))
  {
    BlankIffAllWhite(s.name);
    if IsBlank(s.name) then (s.(error := Some(nameEmpty)), None)
    else
      var error := if outcome.Some? then Some(RejectionMessage(outcome.value)) else None;
      (s.(error := error), Some((s.name, s.description)))
  }

  /** Whatever the description holds, it neither blocks nor enables a submission. */
  lemma {:induction false} DescriptionNeverValidated(s: FormState, nameEmpty: string, outcome: Option<Thrown>, description: string)
    ensures HandleSubmit(s, nameEmpty, outcome).1.Some? == HandleSubmit(s.(description := description), nameEmpty, outcome).1.Some?
  {
  }
}

=== FILE: note_form.dfy ===
/**
 * The note editor dialog (src/renderer/components/notes/NoteForm.tsx): its
 * three fields, the open/reset effect, and the validation on submit.
 */
module NoteForm {
  import opened Wrappers
  import opened Text

  const ContentEmpty := "Content cannot be empty."
  const TitleEmpty := "Title cannot be empty."

  datatype FormState = FormState(title: string, content: string, tags: string, error: Option<string>)

  /** The note being edited, as the dialog receives it. */
  datatype InitialNote = InitialNote(id: string, title: string, content: string, tags: Option<string>)

  /** What `onSubmit` receives. */
  datatype Submission = Submission(id: Option<string>, title: string, content: string, tags: string)

  const Blank := FormState("", "", "", None)

  /**
   * The effect on `isOpen`/`initialData`: when open, copy the note (tags
   * default to '') or clear the fields, and clear the error; when closed,
   * nothing changes.
   */
  function Open(s: FormState, isOpen: bool, initial: Option<InitialNote>): (r: FormState)
    ensures !isOpen ==> r == s
    ensures isOpen ==> r.error.None?
    ensures isOpen && initial.Some? ==>
      r.title == initial.value.title && r.content == initial.value.content && r.tags == initial.value.tags.GetOr("")
    ensures isOpen && initial.None? ==> r == Blank
  {
    if !isOpen then s
    else match initial
      case Some(n) => FormState(n.title, n.content, n.tags.GetOr(""), None)
      case None => Blank
  }

  /** `handleChange`: 'title', 'content' or 'tags' takes the value; any other name changes nothing. */
  function HandleChange(s: FormState, name: string, value: string): (r: FormState)
    ensures name == "title" ==> r == s.(title := value)
    ensures name == "content" ==> r == s.(content := value)
    ensures name == "tags" ==> r == s.(tags := value)
    ensures name != "title" && name != "content" && name != "tags" ==> r == s
  {
    if name == "title" then s.(title := value)
    else if name == "content" then s.(content := value)
    else if name == "tags" then s.(tags := value)
    else s
  }

  /** The validation error of a form, content first: `None` when both fields have non-white text. */
  function ValidationError(title: string, content: string): (e: Option<string>)
    ensures e.None? <==> !AllWhite(content) && !AllWhite(title)
    ensures AllWhite(content) ==> e == Some(ContentEmpty)
    ensures !AllWhite(content) && AllWhite(title) ==> e == Some(TitleEmpty)
  {
    BlankIffAllWhite(content);
    BlankIffAllWhite(title);
    if IsBlank(content) then Some(ContentEmpty)
    else if IsBlank(title) then Some(TitleEmpty)
    else None
  }

  /**
   * `handleSubmit`: a failed check records its message and calls nothing;
   * otherwise the error is cleared and `onSubmit` gets the untrimmed fields.
   */
  function HandleSubmit(s: FormState, initial: Option<InitialNote>): (r: (FormState, Option<Submission>))
    ensures r.0.error == ValidationError(s.title, s.content)
    ensures r.0.title == s.title && r.0.content == s.content && r.0.tags == s.tags
    ensures r.1.Some? <==> !AllWhite(s.content) && !AllWhite(s.title)
    ensures r.1.Some? ==> r.1.value == Submission(if initial.Some? then Some(initial.value.id) else None, s.title, s.content, s.tags)
  {
    match ValidationError(s.title, s.content)
    case Some(e) => (s.(error := Some(e)), None)
    case None =>
      var id := if initial.Some? then Some(initial.value.id) else None;
      (s.(error := None), Some(Submission(id, s.title, s.content, s.tags)))
  }
}

=== FILE: octets.dfy ===
/** Byte strings, the values the cryptographic primitives consume and produce. */
module Octets {

  newtype byte = x: int | 0 <= x < 256

  type Bytes = seq<byte>
}

=== FILE: primitives.dfy ===
/**
 * The cryptographic and encoding primitives both storage layers rely on.
 * Their internals are out of scope: each is a function-valued parameter,
 * and the property the application relies on is a predicate that the
 * proofs take as a hypothesis. PKCS#7 padding is small enough to define.
 */
module Primitives {
  import opened Wrappers
  import opened Octets

  /**
   * An authenticated cipher, AES-256-GCM (NIST SP 800-38D) in the vault:
   * `seal(key, iv, plaintext)` gives the ciphertext and the tag;
   * `open(key, iv, ciphertext, tag)` gives the plaintext, or `None` when
   * the tag does not authenticate the input.
   */
  datatype Aead = Aead(seal: (Bytes, Bytes, Bytes) -> (Bytes, Bytes), open: (Bytes, Bytes, Bytes, Bytes) -> Option<Bytes>)

  /** Opening what was sealed under the same key and IV gives the plaintext back. */
  ghost predicate AeadCorrect(a: Aead) {
    forall key, iv, p :: a.open(key, iv, a.seal(key, iv, p).0, a.seal(key, iv, p).1) == Some(p)
  }

  /**
   * A block cipher in CBC mode (AES-CBC, section 6.2 of NIST SP 800-38A) over
   * whole blocks: `encrypt(key, iv, blocks)` and `decrypt(key, iv, blocks)`.
   */
  datatype Cbc = Cbc(encrypt: (Bytes, Bytes, Bytes) -> Bytes, decrypt: (Bytes, Bytes, Bytes) -> Bytes)

  const BlockSize: nat := 16

  /** Decryption undoes encryption on input made of whole blocks. */
  ghost predicate CbcCorrect(c: Cbc) {
    forall key, iv, p :: |p| % BlockSize == 0 ==> c.decrypt(key, iv, c.encrypt(key, iv, p)) == p
  }

  /** A password-based key derivation function: `kdf(password, salt, length)`. */
  type Kdf = (string, Bytes, nat) -> Bytes

  /** The UTF-8 conversion between strings and bytes. */
  datatype TextCodec = TextCodec(encode: string -> Bytes, decode: Bytes -> string)

  /** Decoding the encoding of a string gives the string back. */
  ghost predicate CodecCorrect(c: TextCodec) {
    forall s :: c.decode(c.encode(s)) == s
  }

  /** A UTF-8 conversion whose decoding refuses (`None`) bytes that are not well-formed UTF-8. */
  datatype StrictCodec = StrictCodec(encode: string -> Bytes, decode: Bytes -> Option<string>)

  /** The strict decoding accepts every encoding, and gives the string back. */
  ghost predicate StrictCodecCorrect(c: StrictCodec) {
    forall s :: c.decode(c.encode(s)) == Some(s)
  }

  /** PKCS#7 padding to a multiple of the block size (section 6.3 of RFC 5652). */
  function Pad(data: Bytes): (p: Bytes)
    ensures |p| % BlockSize == 0 && |data| < |p| <= |data| + BlockSize
    ensures p[..|data|] == data
    ensures forall i :: |data| <= i < |p| ==> p[i] as int == |p| - |data|
  {
    var n := BlockSize - |data| % BlockSize;
    data + seq(n, _ => n as byte)
  }

  /** Removes PKCS#7 padding; `None` when the padding is malformed. */
  function Unpad(p: Bytes): (r: Option<Bytes>)
    ensures r.Some? ==> |r.value| < |p| && p[..|r.value|] == r.value
  {
    if |p| == 0 || |p| % BlockSize != 0 then None
    else
      var n := p[|p| - 1] as int;
      if n == 0 || n > BlockSize || n > |p| then None
      else if forall i :: |p| - n <= i < |p| ==> p[i] as int == n then Some(p[..|p| - n])
      else None
  }

  /** Unpadding undoes padding. */
  lemma UnpadPad(data: Bytes)
    ensures Unpad(Pad(data)) == Some(data)
  {
    var p := Pad(data);
    assert p[|p| - 1] as int == |p| - |data|;
  }

  /** A toy authenticated cipher, showing that `AeadCorrect` can be met. */
  function ToyAead(): Aead {
    Aead((key, iv, p) => (p, key + iv), (key, iv, c, t) => if t == key + iv then Some(c) else None)
  }

  lemma ToyAeadCorrect()
    ensures AeadCorrect(ToyAead())
  {
  }
}

=== FILE: project_form.dfy ===
/** The new-project dialog (src/renderer/components/project/ProjectForm.tsx). */
module ProjectForm {
  import opened Wrappers
  import opened Text
  import opened Envelopes
  import NamedForm

  const NameEmpty := "Project name cannot be empty."

  /** The effect on `isOpen`: opening resets both fields and the error. */
  function Open(s: NamedForm.FormState, isOpen: bool): (r: NamedForm.FormState)
    ensures isOpen ==> r.name == "" && r.description == "" && r.error.None?
    ensures !isOpen ==> r == s
  {
    if isOpen then NamedForm.Blank else s
  }

  /** `handleSubmit`: a blank name is refused with this form's message. */
  function HandleSubmit(s: NamedForm.FormState, outcome: Option<Thrown>): (r: (NamedForm.FormState, Option<(string, string)>))
    ensures r.1.None? ==> r.0.error == Some(NameEmpty)
    ensures r.1.Some? ==> r.1.value == (s.name, s.description)
    ensures r.1.None? <==> AllWhite(s.name)
    ensures r.1.Some? ==> r.0.error == (if outcome.Some? then Some(NamedForm.RejectionMessage(outcome.value)) else None)
  {
    NamedForm.HandleSubmit(s, NameEmpty, outcome)
  }
}

=== FILE: projects.dfy ===
/**
 * The project context of the renderer (src/renderer/contexts/ProjectContext.tsx):
 * the project list, which project is active, and the persisted choice.
 * React state and `localStorage` are fields of one record; each handler
 * and effect is a transition of it.
 */
module Projects {
  import opened Wrappers
  import opened Text
  import opened Envelopes

  const DefaultProjectId := "f47ac10b-58cc-4372-a567-0e02b2c3d479"
  const NoBridgeFetch := "IPC renderer not available. Cannot fetch projects."
  const FetchFailed := "Failed to fetch projects."
  const NoBridgeCreate := "IPC renderer not available. Cannot create project."
  const CreateFailed := "Failed to create project."

  datatype Project = Project(id: string, name: string, description: Option<string>, createdAt: string, updatedAt: string)

  /**
   * The provider's state. `stored` is the `activeProjectId` entry of
   * `localStorage`; `activeProject` is derived, see `ActiveProject`.
   */
  datatype ProjectState = ProjectState(
    projects: seq<Project>,
    activeProjectId: Option<string>,
    isLoadingProjects: bool,
    projectError: Option<string>,
    stored: Option<string>)

  /** Some listed project has the id. */
  predicate Lists(projects: seq<Project>, id: string) {
    exists i :: 0 <= i < |projects| && projects[i].id == id
  }

  /** The state on mount: nothing loaded, and the active id read back from storage. */
  function Mount(stored: Option<string>): (s: ProjectState)
    ensures s.projects == [] && s.isLoadingProjects && s.projectError.None?
    ensures s.activeProjectId == stored && s.stored == stored
  {
    ProjectState([], stored, true, None, stored)
  }

  /**
   * The active id the initialisation effect picks from a non-empty list: the
   * stored id if it is listed, else the default project if it is listed,
   * else the first project.
   */
  function ChooseActiveId(projects: seq<Project>, stored: Option<string>): (id: string)
    requires |projects| > 0
    ensures Lists(projects, id)
    ensures id == stored.GetOr("") && stored.GetOr("") != "" <==> Truthy(stored) && Lists(projects, stored.value)
    ensures !(Truthy(stored) && Lists(projects, stored.value)) && Lists(projects, DefaultProjectId) ==> id == DefaultProjectId
    ensures !(Truthy(stored) && Lists(projects, stored.value)) && !Lists(projects, DefaultProjectId) ==> id == projects[0].id
  {
    if Truthy(stored) && Lists(projects, stored.value) then stored.value
    else if Lists(projects, DefaultProjectId) then DefaultProjectId
    else projects[0].id
  }

  /** `setActiveProjectId`: sets the id, and persists it when truthy or removes the stored one otherwise. */
  function SetActiveProjectId(s: ProjectState, id: Option<string>): (r: ProjectState)
    ensures r.activeProjectId == id
    ensures Truthy(id) ==> r.stored == id
    ensures !Truthy(id) ==> r.stored.None?
    ensures r.projects == s.projects && r.projectError == s.projectError && r.isLoadingProjects == s.isLoadingProjects
  {
    s.(activeProjectId := id, stored := if Truthy(id) then id else None)
  }

  /**
   * The effect that initialises and persists the active id once loading has
   * finished; while loading it does nothing.
   */
  function InitActive(s: ProjectState): (r: ProjectState)
    ensures s.isLoadingProjects ==> r == s
    ensures !s.isLoadingProjects && |s.projects| > 0 ==>
      && r.activeProjectId.Some? && Lists(s.projects, r.activeProjectId.value)
      && (Truthy(r.activeProjectId) ==> r.stored == r.activeProjectId)
    ensures !s.isLoadingProjects && |s.projects| == 0 ==> r.activeProjectId.None? && r.stored.None?
    ensures r.projects == s.projects && r.projectError == s.projectError && r.isLoadingProjects == s.isLoadingProjects
  {
    if s.isLoadingProjects then s
    else if |s.projects| > 0 then SetActiveProjectId(s, Some(ChooseActiveId(s.projects, s.stored)))
    else SetActiveProjectId(s, None)
  }

  /** The first project with the id. */
  function Find(projects: seq<Project>, id: string): (r: Option<Project>)
    ensures r.Some? <==> Lists(projects, id)
    ensures r.Some? ==> exists i :: 0 <= i < |projects| && projects[i] == r.value && r.value.id == id
                                    && forall j :: 0 <= j < i ==> projects[j].id != id
  {
    if |projects| == 0 then None
    else if projects[0].id == id then Some(projects[0])
    else
      var r := Find(projects[1..], id);
      if r.Some? then
        var i :| 0 <= i < |projects[1..]| && projects[1..][i] == r.value && r.value.id == id
                 && forall j :: 0 <= j < i ==> projects[1..][j].id != id;
        assert projects[i + 1] == r.value;
        r
      else
        r
  }

  /** The derived `activeProject`: the first listed project with the active id, if the id is truthy. */
  function ActiveProject(s: ProjectState): (r: Option<Project>)
    ensures r.Some? <==> Truthy(s.activeProjectId) && Lists(s.projects, s.activeProjectId.value)
    ensures r.Some? ==> r.value.id == s.activeProjectId.value
  {
    if Truthy(s.activeProjectId) && |s.projects| > 0 then Find(s.projects, s.activeProjectId.value) else None
  }

  /** Once a non-empty list of projects with non-empty ids has loaded, some project is active. */
  lemma {:induction false} LoadedListHasActiveProject(s: ProjectState)
    requires !s.isLoadingProjects && |s.projects| > 0
    requires forall i :: 0 <= i < |s.projects| ==> s.projects[i].id != ""
    ensures ActiveProject(InitActive(s)).Some?
    ensures InitActive(s).stored == InitActive(s).activeProjectId
  {
    var r := InitActive(s);
    var i :| 0 <= i < |s.projects| && s.projects[i].id == r.activeProjectId.value;
    assert r.activeProjectId.value != "";
  }

  /** A stored id that is listed survives initialisation; one that is not listed is replaced. */
  lemma StoredIdKeptIffListed(s: ProjectState)
    requires !s.isLoadingProjects && |s.projects| > 0 && Truthy(s.stored)
    ensures InitActive(s).activeProjectId == s.stored <==> Lists(s.projects, s.stored.value)
  {
  }

  /**
   * `refreshProjects`. `bridge` tells whether the IPC bridge exists and
   * `reply` is the answer to 'get-projects'. Any failure empties the list
   * and records the message; loading is over afterwards.
   */
  function RefreshProjects(s: ProjectState, bridge: bool, reply: Reply<seq<Project>>): (r: ProjectState)
    ensures !r.isLoadingProjects
    ensures r.activeProjectId == s.activeProjectId && r.stored == s.stored
    ensures bridge && reply.Resolved? && reply.envelope.Ok? ==> r.projectError.None?
    ensures bridge && reply.Rejected? ==> r.projectError == MessageOf(reply.thrown)
    ensures bridge && reply.Resolved? && reply.envelope.Ok? ==> r.projects == reply.envelope.data.GetOr([])
    ensures !(bridge && reply.Resolved? && reply.envelope.Ok?) ==> r.projects == []
    ensures !bridge ==> r.projectError == Some(NoBridgeFetch)
    ensures bridge && reply.Resolved? && reply.envelope.Err? ==>
      r.projectError == Some(if Truthy(reply.envelope.error) then reply.envelope.error.value else FetchFailed)
  {
    var loading := s.(isLoadingProjects := true, projectError := None);
    var after :=
      if !bridge then loading.(projectError := Some(NoBridgeFetch), projects := [])
      else match reply
        case Rejected(t) => loading.(projectError := MessageOf(t), projects := [])
        case Resolved(Ok(data)) => loading.(projects := data.GetOr([]))
        case Resolved(Err(e)) =>
          loading.(projectError := Some(if Truthy(e) then e.value else FetchFailed), projects := []);
    after.(isLoadingProjects := false)
  }

  /**
   * `createProject(name, description)`. `reply` answers 'create-project' and
   * `refreshReply` answers the 'get-projects' of the refresh that follows a
   * success. Returns the new state and the created project, or null.
   */
  function CreateProject(s: ProjectState, bridge: bool, reply: Reply<Project>, refreshReply: Reply<seq<Project>>): (r: (ProjectState, Option<Project>))
    ensures r.1.Some? <==> bridge && reply.Resolved? && reply.envelope.Ok? && reply.envelope.data.Some?
    ensures r.1.Some? ==> r.1.value == reply.envelope.data.value && r.0 == RefreshProjects(s, bridge, refreshReply)
    ensures r.1.None? ==> r.0.projectError.Some? || (reply.Rejected? && reply.thrown.OtherValue?)
    ensures r.1.None? ==> r.0.projects == s.projects && r.0.activeProjectId == s.activeProjectId
    ensures !bridge ==> r.0.projectError == Some(NoBridgeCreate)
  {
    var cleared := s.(projectError := None);
    if !bridge then (cleared.(projectError := Some(NoBridgeCreate)), None)
    else match reply
      case Rejected(t) => (cleared.(projectError := MessageOf(t)), None)
      case Resolved(Ok(Some(p))) => (RefreshProjects(cleared, bridge, refreshReply), Some(p))
      case Resolved(Ok(None)) => (cleared.(projectError := Some(CreateFailed)), None)
      case Resolved(Err(e)) =>
        (cleared.(projectError := Some(if Truthy(e) then e.value else CreateFailed)), None)
  }

  /**
   * A refresh that receives a non-empty list of projects with non-empty ids
   * is followed, once the initialisation effect has run, by an active
   * project taken from that list.
   */
  lemma {:induction false} RefreshThenActive(s: ProjectState, projects: seq<Project>)
    requires |projects| > 0
    requires forall i :: 0 <= i < |projects| ==> projects[i].id != ""
    ensures var r := InitActive(RefreshProjects(s, true, Resolved(Ok(Some(projects)))));
      ActiveProject(r).Some? && ActiveProject(r).value in projects
  {
    var loaded := RefreshProjects(s, true, Resolved(Ok(Some(projects))));
    LoadedListHasActiveProject(loaded);
    var r := InitActive(loaded);
    var p := ActiveProject(r).value;
    var i :| 0 <= i < |projects| && projects[i] == p && p.id == r.activeProjectId.value
             && forall j :: 0 <= j < i ==> projects[j].id != p.id;
  }

  /**
   * A created project, followed by a refresh that lists projects with
   * non-empty ids, leaves some listed project active.
   */
  lemma {:induction false} CreateThenActive(s: ProjectState, created: Project, projects: seq<Project>)
    requires |projects| > 0
    requires forall i :: 0 <= i < |projects| ==> projects[i].id != ""
    ensures var (r, p) := CreateProject(s, true, Resolved(Ok(Some(created))), Resolved(Ok(Some(projects))));
      p == Some(created) && ActiveProject(InitActive(r)).Some? && ActiveProject(InitActive(r)).value in projects
  {
    RefreshThenActive(s.(projectError := None), projects);
  }

  /**
   * Without the IPC bridge a refresh always ends with no projects, the
   * bridge message as the error, and no active project.
   */
  lemma {:induction false} NoBridgeNoActiveProject(s: ProjectState, reply: Reply<seq<Project>>)
    ensures var r := InitActive(RefreshProjects(s, false, reply));
      r.projects == [] && r.projectError == Some(NoBridgeFetch) && ActiveProject(r).None? && r.stored.None?
  {
  }
}

=== FILE: records.dfy ===
/**
 * The record commands of the main process (src/main/main.ts): notes and
 * timeline events kept by the ORM, each command answering with a
 * `{success, data | error}` envelope; the application-info query; and the
 * two raw key-saving commands registered there.
 */
module Records {
  import opened Wrappers
  import opened Sorting
  import opened Envelopes
  import Vault

  /** A note row; `createdAt` is the store's timestamp in milliseconds. */
  datatype Note = Note(id: string, title: string, content: string, tags: Option<string>, projectId: string, createdAt: int)

  /** The payload of 'create-note'. */
  datatype NoteDraft = NoteDraft(title: string, content: string, tags: Option<string>, projectId: string)

  /** The `data` of 'update-note': an absent field is left as it is. */
  datatype NotePatch = NotePatch(title: Option<string>, content: Option<string>, tags: Option<string>)

  /** A timeline-event row; `date` is a timestamp in milliseconds. */
  datatype TimelineEvent = TimelineEvent(id: int, date: int, description: string, charactersInvolved: string)

  /** The payload of 'create-timeline-event'; the date is still text. */
  datatype EventDraft = EventDraft(date: string, description: string, charactersInvolved: string)

  /** The `data` of 'update-timeline-event'. */
  datatype EventPatch = EventPatch(date: Option<string>, description: Option<string>, charactersInvolved: Option<string>)

  /** The two ORM tables. */
  datatype Store = Store(notes: seq<Note>, events: seq<TimelineEvent>)

  /** `new Date(text)`, reduced to its timestamp. */
  type DateParser = string -> int

  /** No two rows share a key. */
  predicate UniqueBy<T, K(==)>(rows: seq<T>, key: T -> K) {
    forall i, j :: 0 <= i < j < |rows| ==> key(rows[i]) != key(rows[j])
  }

  /** No two rows of a table share an id. */
  predicate UniqueIds(s: Store) {
    UniqueBy(s.notes, NoteId) && UniqueBy(s.events, EventId)
  }

  /** The reply to a command whose one ORM call threw: `{success: false, error: error.message}`. */
  function Failed<T>(t: Thrown): Envelope<T> {
    Err(MessageOf(t))
  }

  function EventDate(e: TimelineEvent): int {
    e.date
  }

  /** The sort key for newest first. */
  function Age(n: Note): int {
    -n.createdAt
  }

  /** 'get-timeline-events': every event, earliest date first. */
  function GetTimelineEvents(s: Store, fault: Fault): (r: Envelope<seq<TimelineEvent>>)
    ensures fault.Throws(0) ==> r == Failed(fault.thrown)
    ensures !fault.Throws(0) ==> r.Ok? && r.data.Some? && multiset(r.data.value) == multiset(s.events)
    ensures r.Ok? ==> forall i, j :: 0 <= i < j < |r.data.value| ==> r.data.value[i].date <= r.data.value[j].date
  {
    if fault.Throws(0) then Failed(fault.thrown)
    else
      var events := SortBy(s.events, EventDate);
      assert forall i, j :: 0 <= i < j < |events| ==> EventDate(events[i]) <= EventDate(events[j]);
      Ok(Some(events))
  }

  /** 'get-notes': every note of every project, newest first. */
  function GetNotes(s: Store, fault: Fault): (r: Envelope<seq<Note>>)
    ensures fault.Throws(0) ==> r == Failed(fault.thrown)
    ensures !fault.Throws(0) ==> r.Ok? && r.data.Some? && multiset(r.data.value) == multiset(s.notes)
    ensures r.Ok? ==> forall i, j :: 0 <= i < j < |r.data.value| ==> r.data.value[i].createdAt >= r.data.value[j].createdAt
  {
    if fault.Throws(0) then Failed(fault.thrown)
    else
      var notes := SortBy(s.notes, Age);
      assert forall i, j :: 0 <= i < j < |notes| ==> Age(notes[i]) <= Age(notes[j]);
      Ok(Some(notes))
  }

  /**
   * 'create-note': the payload goes to the store as it is; the store adds
   * the id `id` and the timestamp `now`, and the new row is the reply's data.
   */
  function CreateNote(s: Store, draft: NoteDraft, id: string, now: int, fault: Fault): (r: (Store, Envelope<Note>))
    ensures fault.Throws(0) ==> r == (s, Failed(fault.thrown))
    ensures !fault.Throws(0) ==> r.1.Ok? && r.1.data.Some?
    ensures r.1.Ok? ==>
      && r.1.data.value == Note(id, draft.title, draft.content, draft.tags, draft.projectId, now)
      && r.0 == s.(notes := s.notes + [r.1.data.value])
  {
    if fault.Throws(0) then (s, Failed(fault.thrown))
    else
      var note := Note(id, draft.title, draft.content, draft.tags, draft.projectId, now);
      (s.(notes := s.notes + [note]), Ok(Some(note)))
  }

  function NoteId(n: Note): string {
    n.id
  }

  function EventId(e: TimelineEvent): int {
    e.id
  }

  /** The position of the row whose key is `k`, as the ORM's `where: {id}` finds it. */
  function IndexBy<T, K(==)>(rows: seq<T>, key: T -> K, k: K): (r: Option<nat>)
    ensures r.Some? ==> r.value < |rows| && key(rows[r.value]) == k
    ensures r.None? ==> forall i :: 0 <= i < |rows| ==> key(rows[i]) != k
  {
    if |rows| == 0 then None
    else if key(rows[|rows| - 1]) == k then Some(|rows| - 1)
    else IndexBy(rows[..|rows| - 1], key, k)
  }

  /** A note with the fields the patch carries replaced. */
  function PatchNote(n: Note, p: NotePatch): (r: Note)
    ensures r.id == n.id && r.projectId == n.projectId && r.createdAt == n.createdAt
    ensures r.title == p.title.GetOr(n.title) && r.content == p.content.GetOr(n.content)
    ensures p.tags.Some? ==> r.tags == p.tags
    ensures p.tags.None? ==> r.tags == n.tags
  {
    Note(n.id, p.title.GetOr(n.title), p.content.GetOr(n.content), if p.tags.Some? then p.tags else n.tags,
         n.projectId, n.createdAt)
  }

  /**
   * 'update-note'. `notFound` is what the ORM throws when no row has the id;
   * the ORM call is call 0.
   */
  function UpdateNote(s: Store, id: string, patch: NotePatch, notFound: Thrown, fault: Fault): (r: (Store, Envelope<Note>))
    ensures r.1.Err? ==> r.0 == s
    ensures fault.Throws(0) ==> r.1 == Failed(fault.thrown)
    ensures !fault.Throws(0) && (forall i :: 0 <= i < |s.notes| ==> s.notes[i].id != id) ==> r.1 == Failed(notFound)
    ensures r.1.Ok? ==> r.1.data.Some? && exists i ::
      && 0 <= i < |s.notes|
      && s.notes[i].id == id
      && r.1.data.value == PatchNote(s.notes[i], patch)
      && r.0 == s.(notes := s.notes[i := r.1.data.value])
  {
    if fault.Throws(0) then (s, Failed(fault.thrown))
    else match IndexBy(s.notes, NoteId, id)
      case None => (s, Failed(notFound))
      case Some(i) =>
        var updated := PatchNote(s.notes[i], patch);
        (s.(notes := s.notes[i := updated]), Ok(Some(updated)))
  }

  /** 'delete-note': `{success: true}` with no data, or the ORM's error. */
  function DeleteNote(s: Store, id: string, notFound: Thrown, fault: Fault): (r: (Store, Envelope<()>))
    ensures r.1.Ok? ==> r.1.data.None?
    ensures r.1.Err? ==> r.0 == s
    ensures fault.Throws(0) ==> r.1 == Failed(fault.thrown)
    ensures !fault.Throws(0) && (forall i :: 0 <= i < |s.notes| ==> s.notes[i].id != id) ==> r.1 == Failed(notFound)
    ensures r.1.Ok? ==> exists i ::
      && 0 <= i < |s.notes|
      && s.notes[i].id == id
      && r.0 == s.(notes := s.notes[..i] + s.notes[i + 1..])
  {
    if fault.Throws(0) then (s, Failed(fault.thrown))
    else match IndexBy(s.notes, NoteId, id)
      case None => (s, Failed(notFound))
      case Some(i) => (s.(notes := s.notes[..i] + s.notes[i + 1..]), Ok(None))
  }

  /** 'create-timeline-event': the payload with its date parsed. */
  function CreateTimelineEvent(s: Store, draft: EventDraft, id: int, parse: DateParser, fault: Fault): (r: (Store, Envelope<TimelineEvent>))
    ensures fault.Throws(0) ==> r == (s, Failed(fault.thrown))
    ensures !fault.Throws(0) ==> r.1.Ok? && r.1.data.Some?
    ensures r.1.Ok? ==>
      && r.1.data.value == TimelineEvent(id, parse(draft.date), draft.description, draft.charactersInvolved)
      && r.0 == s.(events := s.events + [r.1.data.value])
  {
    if fault.Throws(0) then (s, Failed(fault.thrown))
    else
      var event := TimelineEvent(id, parse(draft.date), draft.description, draft.charactersInvolved);
      (s.(events := s.events + [event]), Ok(Some(event)))
  }

  /** An event with the patch applied: an absent or empty date keeps the stored one. */
  function PatchEvent(e: TimelineEvent, p: EventPatch, parse: DateParser): (r: TimelineEvent)
    ensures r.id == e.id
    ensures p.date.Some? && p.date.value != "" ==> r.date == parse(p.date.value)
    ensures p.date.None? || p.date.value == "" ==> r.date == e.date
    ensures r.description == p.description.GetOr(e.description)
    ensures r.charactersInvolved == p.charactersInvolved.GetOr(e.charactersInvolved)
  {
    var date := if p.date.Some? && p.date.value != "" then parse(p.date.value) else e.date;
    TimelineEvent(e.id, date, p.description.GetOr(e.description), p.charactersInvolved.GetOr(e.charactersInvolved))
  }

  /** 'update-timeline-event'. */
  function UpdateTimelineEvent(s: Store, id: int, patch: EventPatch, parse: DateParser, notFound: Thrown, fault: Fault): (r: (Store, Envelope<TimelineEvent>))
    ensures r.1.Err? ==> r.0 == s
    ensures fault.Throws(0) ==> r.1 == Failed(fault.thrown)
    ensures !fault.Throws(0) && (forall i :: 0 <= i < |s.events| ==> s.events[i].id != id) ==> r.1 == Failed(notFound)
    ensures r.1.Ok? ==> r.1.data.Some? && exists i ::
      && 0 <= i < |s.events|
      && s.events[i].id == id
      && r.1.data.value == PatchEvent(s.events[i], patch, parse)
      && r.0 == s.(events := s.events[i := r.1.data.value])
  {
    if fault.Throws(0) then (s, Failed(fault.thrown))
    else match IndexBy(s.events, EventId, id)
      case None => (s, Failed(notFound))
      case Some(i) =>
        var updated := PatchEvent(s.events[i], patch, parse);
        (s.(events := s.events[i := updated]), Ok(Some(updated)))
  }

  /** 'delete-timeline-event'. */
  function DeleteTimelineEvent(s: Store, id: int, notFound: Thrown, fault: Fault): (r: (Store, Envelope<()>))
    ensures r.1.Ok? ==> r.1.data.None?
    ensures r.1.Err? ==> r.0 == s
    ensures fault.Throws(0) ==> r.1 == Failed(fault.thrown)
    ensures !fault.Throws(0) && (forall i :: 0 <= i < |s.events| ==> s.events[i].id != id) ==> r.1 == Failed(notFound)
    ensures r.1.Ok? ==> exists i ::
      && 0 <= i < |s.events|
      && s.events[i].id == id
      && r.0 == s.(events := s.events[..i] + s.events[i + 1..])
  {
    if fault.Throws(0) then (s, Failed(fault.thrown))
    else match IndexBy(s.events, EventId, id)
      case None => (s, Failed(notFound))
      case Some(i) => (s.(events := s.events[..i] + s.events[i + 1..]), Ok(None))
  }

  /** An update whose date is absent or empty changes the event's other fields only. */
  lemma {:induction false} UpdateWithoutDateKeepsDate(s: Store, id: int, patch: EventPatch, parse: DateParser, notFound: Thrown)
    requires patch.date.None? || patch.date == Some("")
    ensures var (s', reply) := UpdateTimelineEvent(s, id, patch, parse, notFound, NoFault);
      forall i :: 0 <= i < |s.events| ==> s'.events[i].date == s.events[i].date
  {
  }

  /** Appending a row whose key no row has keeps the keys unique. */
  lemma {:induction false} AppendFresh<T, K>(rows: seq<T>, key: T -> K, row: T)
    requires UniqueBy(rows, key)
    requires forall i :: 0 <= i < |rows| ==> key(rows[i]) != key(row)
    ensures UniqueBy(rows + [row], key)
  {
    var all := rows + [row];
    forall i, j | 0 <= i < j < |all|
      ensures key(all[i]) != key(all[j])
    {
      if j == |rows| {
        assert all[i] == rows[i] && all[j] == row;
      } else {
        assert all[i] == rows[i] && all[j] == rows[j];
      }
    }
  }

  /**
   * Removing the row at `i` from a table with unique keys keeps the keys
   * unique, removes that key, and keeps every other row.
   */
  lemma {:induction false} RemoveAt<T, K>(rows: seq<T>, key: T -> K, i: nat)
    requires i < |rows|
    requires UniqueBy(rows, key)
    ensures |rows[..i] + rows[i + 1..]| == |rows| - 1
    ensures UniqueBy(rows[..i] + rows[i + 1..], key)
    ensures forall n :: n in rows[..i] + rows[i + 1..] ==> key(n) != key(rows[i])
    ensures forall n :: n in rows && key(n) != key(rows[i]) ==> n in rows[..i] + rows[i + 1..]
  {
    var rest := rows[..i] + rows[i + 1..];
    assert forall k :: 0 <= k < |rest| ==> rest[k] == rows[if k < i then k else k + 1];
    forall a, b | 0 <= a < b < |rest|
      ensures key(rest[a]) != key(rest[b])
    {
      assert rest[a] == rows[if a < i then a else a + 1];
      assert rest[b] == rows[if b < i then b else b + 1];
    }
    forall n | n in rest
      ensures key(n) != key(rows[i])
    {
      var k :| 0 <= k < |rest| && rest[k] == n;
      assert rest[k] == rows[if k < i then k else k + 1];
    }
    forall n | n in rows && key(n) != key(rows[i])
      ensures n in rest
    {
      var k :| 0 <= k < |rows| && rows[k] == n;
      if k < i {
        assert rest[k] == n;
      } else {
        assert rest[k - 1] == n;
      }
    }
  }

  /**
   * Creating a note with an id no note has, and updating or deleting the
   * note with any id, keep the ids unique.
   */
  lemma {:induction false} NoteCommandsKeepIdsUnique(s: Store, draft: NoteDraft, freshId: string, now: int,
                                                     id: string, patch: NotePatch, notFound: Thrown, fault: Fault)
    requires UniqueIds(s)
    requires forall i :: 0 <= i < |s.notes| ==> s.notes[i].id != freshId
    ensures UniqueIds(CreateNote(s, draft, freshId, now, fault).0)
    ensures UniqueIds(UpdateNote(s, id, patch, notFound, fault).0)
    ensures UniqueIds(DeleteNote(s, id, notFound, fault).0)
  {
    if !fault.Throws(0) {
      AppendFresh(s.notes, NoteId, Note(freshId, draft.title, draft.content, draft.tags, draft.projectId, now));
      match IndexBy(s.notes, NoteId, id)
      case None =>
      case Some(i) =>
        var u := UpdateNote(s, id, patch, notFound, fault).0;
        assert forall k :: 0 <= k < |s.notes| ==> NoteId(u.notes[k]) == NoteId(s.notes[k]);
        RemoveAt(s.notes, NoteId, i);
    }
  }

  /**
   * Creating an event with an id no event has, and updating or deleting the
   * event with any id, keep the ids unique.
   */
  lemma {:induction false} EventCommandsKeepIdsUnique(s: Store, draft: EventDraft, freshId: int, parse: DateParser,
                                                      id: int, patch: EventPatch, notFound: Thrown, fault: Fault)
    requires UniqueIds(s)
    requires forall i :: 0 <= i < |s.events| ==> s.events[i].id != freshId
    ensures UniqueIds(CreateTimelineEvent(s, draft, freshId, parse, fault).0)
    ensures UniqueIds(UpdateTimelineEvent(s, id, patch, parse, notFound, fault).0)
    ensures UniqueIds(DeleteTimelineEvent(s, id, notFound, fault).0)
  {
    if !fault.Throws(0) {
      AppendFresh(s.events, EventId, TimelineEvent(freshId, parse(draft.date), draft.description, draft.charactersInvolved));
      match IndexBy(s.events, EventId, id)
      case None =>
      case Some(i) =>
        var u := UpdateTimelineEvent(s, id, patch, parse, notFound, fault).0;
        assert forall k :: 0 <= k < |s.events| ==> EventId(u.events[k]) == EventId(s.events[k]);
        RemoveAt(s.events, EventId, i);
    }
  }

  /** A deleted note is gone and nothing else is: the table loses exactly that row. */
  lemma {:induction false} DeleteNoteRemovesOne(s: Store, id: string, notFound: Thrown)
    requires UniqueIds(s)
    ensures var (s', reply) := DeleteNote(s, id, notFound, NoFault);
      && (forall n :: n in s'.notes ==> n.id != id)
      && (reply.Ok? ==> |s'.notes| == |s.notes| - 1)
      && (forall n :: n in s.notes && n.id != id ==> n in s'.notes)
  {
    var (s', reply) := DeleteNote(s, id, notFound, NoFault);
    if reply.Ok? {
      var i :| 0 <= i < |s.notes| && s.notes[i].id == id && s'.notes == s.notes[..i] + s.notes[i + 1..];
      RemoveAt(s.notes, NoteId, i);
    }
  }

  /** A deleted event is gone and nothing else is: the table loses exactly that row. */
  lemma {:induction false} DeleteEventRemovesOne(s: Store, id: int, notFound: Thrown)
    requires UniqueIds(s)
    ensures var (s', reply) := DeleteTimelineEvent(s, id, notFound, NoFault);
      && (forall e :: e in s'.events ==> e.id != id)
      && (reply.Ok? ==> |s'.events| == |s.events| - 1)
      && (forall e :: e in s.events && e.id != id ==> e in s'.events)
  {
    var (s', reply) := DeleteTimelineEvent(s, id, notFound, NoFault);
    if reply.Ok? {
      var i :| 0 <= i < |s.events| && s.events[i].id == id && s'.events == s.events[..i] + s.events[i + 1..];
      RemoveAt(s.events, EventId, i);
    }
  }

  /** What 'get-app-info' returns: a bare record, not an envelope. */
  datatype AppInfo = AppInfo(version: string, name: string, platform: string)

  function GetAppInfo(version: string, name: string, platform: string): AppInfo {
    AppInfo(version, name, platform)
  }

  /** The keychain service the two raw commands write to; it differs from the vault's in case. */
  const RawServiceName := "ai-character-council"

  /**
   * 'set-openai-key' and 'set-anthropic-key' as main.ts registers them: the
   * key goes to the keychain as it is, and a keychain error is not caught,
   * so the renderer's call rejects.
   */
  function SetRawKey(kc: Vault.Keychain, account: string, key: string, fault: Fault): (r: (Vault.Keychain, Reply<()>))
    ensures fault.Throws(0) ==> r == (kc, Rejected(fault.thrown))
    ensures !fault.Throws(0) ==> r.1 == Resolved(Ok(None)) && r.0 == kc[(RawServiceName, account) := key]
  {
    if fault.Throws(0) then (kc, Rejected(fault.thrown))
    else (kc[(RawServiceName, account) := key], Resolved(Ok(None)))
  }

  /**
   * On a keychain that tells service names apart by case, a key saved by the
   * raw commands is invisible to the vault: no provider's stored key changes.
   */
  lemma RawKeyInvisibleToVault(h: Vault.Host, kc: Vault.Keychain, account: string, key: string, fault: Fault, service: string, readFault: Fault)
    ensures Vault.GetApiKey(h, SetRawKey(kc, account, key, fault).0, service, readFault) == Vault.GetApiKey(h, kc, service, readFault)
  {
    assert RawServiceName != Vault.ServiceName by {
      assert RawServiceName[0] != Vault.ServiceName[0];
    }
    assert RawServiceName != Vault.IvServiceName by {
      assert RawServiceName[0] != Vault.IvServiceName[0];
    }
    Vault.LookupLocal(h, kc, SetRawKey(kc, account, key, fault).0, service, readFault);
  }
}

=== FILE: responder.dfy ===
/**
 * The canned response generator of the main process (`AIService` in
 * src/main/services/AIService.ts): which provider answers, the keyword
 * templates, the conversation styles, and the `generate-character-response`
 * command.
 */
module Responder {
  import opened Wrappers
  import opened Text
  import opened Sorting
  import opened Envelopes

  /** The two provider keys the service object holds; `None` is `null`. */
  datatype KeyState = KeyState(openaiKey: Option<string>, anthropicKey: Option<string>)

  /** A fresh service object has no keys. */
  const Unconfigured := KeyState(None, None)

  /** `setOpenAIKey`: replaces the OpenAI key and nothing else. */
  function SetOpenAIKey(s: KeyState, key: Option<string>): (r: KeyState)
    ensures r.openaiKey == key
    ensures r.anthropicKey == s.anthropicKey
  {
    s.(openaiKey := key)
  }

  /** `setAnthropicKey`: replaces the Anthropic key and nothing else. */
  function SetAnthropicKey(s: KeyState, key: Option<string>): (r: KeyState)
    ensures r.anthropicKey == key
    ensures r.openaiKey == s.openaiKey
  {
    s.(anthropicKey := key)
  }

  predicate HasOpenAIKey(s: KeyState) {
    Truthy(s.openaiKey)
  }

  predicate HasAnthropicKey(s: KeyState) {
    Truthy(s.anthropicKey)
  }

  /** `has*Key` reports whether the last key set for that provider is non-empty, whatever was set for the other. */
  lemma {:induction false} HasKeyAfterSet(s: KeyState, key: Option<string>)
    ensures HasOpenAIKey(SetOpenAIKey(s, key)) <==> key.Some? && key.value != ""
    ensures HasAnthropicKey(SetOpenAIKey(s, key)) == HasAnthropicKey(s)
    ensures HasAnthropicKey(SetAnthropicKey(s, key)) <==> key.Some? && key.value != ""
    ensures HasOpenAIKey(SetAnthropicKey(s, key)) == HasOpenAIKey(s)
  {
  }

  datatype Provider = OpenAI | Anthropic | LocalModel

  /** The provider priority: OpenAI whenever its key is set, then Anthropic, then the local model. */
  function SelectProvider(openaiKey: Option<string>, anthropicKey: Option<string>): (p: Provider)
    ensures p == OpenAI <==> Truthy(openaiKey)
    ensures p == Anthropic <==> !Truthy(openaiKey) && Truthy(anthropicKey)
    ensures p == LocalModel <==> !Truthy(openaiKey) && !Truthy(anthropicKey)
  {
    if Truthy(openaiKey) then OpenAI
    else if Truthy(anthropicKey) then Anthropic
    else LocalModel
  }

  /** The fields of a stored character the templates read; the nullable ones are `Option`s. */
  datatype Persona = Persona(name: string, traits: Option<string>, values: Option<string>, voicePatterns: Option<string>)

  /** The prompt topics, in the order they are tested. */
  datatype Topic = Mission | Feeling | Opinion | General

  /** Routes the lower-cased prompt by keyword, first match wins. */
  function TopicOf(prompt: string): (t: Topic)
    ensures t == Mission <==> Contains(Lower(prompt), "mission") || Contains(Lower(prompt), "goal")
    ensures t == Feeling <==> !(Contains(Lower(prompt), "mission") || Contains(Lower(prompt), "goal"))
                              && (Contains(Lower(prompt), "feel") || Contains(Lower(prompt), "emotion"))
    ensures t == Opinion <==> !(Contains(Lower(prompt), "mission") || Contains(Lower(prompt), "goal"))
                              && !(Contains(Lower(prompt), "feel") || Contains(Lower(prompt), "emotion"))
                              && (Contains(Lower(prompt), "think") || Contains(Lower(prompt), "opinion"))
  {
    var p := Lower(prompt);
    if Contains(p, "mission") || Contains(p, "goal") then Mission
    else if Contains(p, "feel") || Contains(p, "emotion") then Feeling
    else if Contains(p, "think") || Contains(p, "opinion") then Opinion
    else General
  }

  /** `field?.toLowerCase() || ''`. */
  function LowerOrEmpty(field: Option<string>): string {
    Lower(field.GetOr(""))
  }

  const FeelConflicted := "conflicted about many things"
  const FeelLoyal := "strongly committed to my allies"
  const FeelDefault := "cautiously optimistic"

  /** The feeling clause: 'conflicted' beats 'loyal', which beats the fallback. */
  function FeelClause(traits: string): (c: string)
    ensures c == FeelConflicted <==> Contains(traits, "conflicted")
    ensures c == FeelLoyal <==> !Contains(traits, "conflicted") && Contains(traits, "loyal")
    ensures c == FeelDefault <==> !Contains(traits, "conflicted") && !Contains(traits, "loyal")
  {
    if Contains(traits, "conflicted") then FeelConflicted
    else if Contains(traits, "loyal") then FeelLoyal
    else FeelDefault
  }

  const ThinkStrategic := "we should approach this methodically"
  const ThinkWise := "there is more to this than meets the eye"
  const ThinkDefault := "we should consider all angles"

  /** The opinion clause: 'strategic' beats 'wise', which beats the fallback. */
  function ThinkClause(traits: string): (c: string)
    ensures c == ThinkStrategic <==> Contains(traits, "strategic")
    ensures c == ThinkWise <==> !Contains(traits, "strategic") && Contains(traits, "wise")
    ensures c == ThinkDefault <==> !Contains(traits, "strategic") && !Contains(traits, "wise")
  {
    if Contains(traits, "strategic") then ThinkStrategic
    else if Contains(traits, "wise") then ThinkWise
    else ThinkDefault
  }

  const OpenMysterious := "There are many layers to this situation."
  const OpenIntelligent := "I have analyzed this carefully."
  const OpenDefault := "I understand your question."

  /** The opening of the general reply: 'mysterious' beats 'intelligent', which beats the fallback. */
  function OpeningClause(traits: string): (c: string)
    ensures c == OpenMysterious <==> Contains(traits, "mysterious")
    ensures c == OpenIntelligent <==> !Contains(traits, "mysterious") && Contains(traits, "intelligent")
    ensures c == OpenDefault <==> !Contains(traits, "mysterious") && !Contains(traits, "intelligent")
  {
    if Contains(traits, "mysterious") then OpenMysterious
    else if Contains(traits, "intelligent") then OpenIntelligent
    else OpenDefault
  }

  const ValueKnowledge := "Knowledge is the key to understanding."
  const ValueProgress := "Progress requires bold action."
  const ValueDefault := "Let me share my perspective."

  /** The closing of the general reply: 'knowledge' beats 'progress', which beats the fallback. */
  function ValueClause(values: string): (c: string)
    ensures c == ValueKnowledge <==> Contains(values, "knowledge")
    ensures c == ValueProgress <==> !Contains(values, "knowledge") && Contains(values, "progress")
    ensures c == ValueDefault <==> !Contains(values, "knowledge") && !Contains(values, "progress")
  {
    if Contains(values, "knowledge") then ValueKnowledge
    else if Contains(values, "progress") then ValueProgress
    else ValueDefault
  }

  /** A sentence that is present exactly when `field` mentions `word`. */
  function IfMentions(field: string, word: string, sentence: string): string {
    if Contains(field, word) then sentence else ""
  }

  const MissionOpening := "My current mission is to explore new possibilities and overcome challenges. "

  /**
   * The templated reply before the style is applied: a fixed opening per
   * topic, the trait-chosen clause, and an extra sentence exactly when the
   * traits or values mention the topic's word.
   */
  function BaseResponse(c: Persona, prompt: string): (r: string)
    ensures TopicOf(prompt) == Mission ==>
      MissionOpening <= r && (|r| > |MissionOpening| <==> Contains(LowerOrEmpty(c.traits), "determined"))
    ensures TopicOf(prompt) == Feeling ==>
      var lead := "I feel " + FeelClause(LowerOrEmpty(c.traits)) + ". ";
      lead <= r && (|r| > |lead| <==> Contains(LowerOrEmpty(c.values), "honor"))
    ensures TopicOf(prompt) == Opinion ==>
      var lead := "I think " + ThinkClause(LowerOrEmpty(c.traits)) + ". ";
      lead <= r && (|r| > |lead| <==> Contains(LowerOrEmpty(c.values), "truth"))
    ensures TopicOf(prompt) == General ==>
      var lead := OpeningClause(LowerOrEmpty(c.traits)) + " ";
      lead <= r && r[|lead|..] == ValueClause(LowerOrEmpty(c.values))
  {
    var traits := LowerOrEmpty(c.traits);
    var values := LowerOrEmpty(c.values);
    match TopicOf(prompt)
    case Mission =>
      MissionOpening + IfMentions(traits, "determined", "I never back down from a challenge.")
    case Feeling =>
      "I feel " + FeelClause(traits) + ". " + IfMentions(values, "honor", "Honor guides my emotions and actions.")
    case Opinion =>
      "I think " + ThinkClause(traits) + ". " + IfMentions(values, "truth", "The truth is what matters most.")
    case General =>
      OpeningClause(traits) + " " + ValueClause(values)
  }

  /** The character's name and voice patterns never enter the templated reply. */
  lemma BaseResponseIgnoresName(c: Persona, prompt: string, name: string, voicePatterns: Option<string>)
    ensures BaseResponse(c.(name := name, voicePatterns := voicePatterns), prompt) == BaseResponse(c, prompt)
  {
  }

  const DetailedTail := " I've experienced many things that have shaped my perspective on this."

  /** The style post-processing of a reply. */
  function ApplyStyle(response: string, style: string, voicePatterns: Option<string>): (r: string)
    ensures style == "concise" ==>
      && |r| >= 1 && r[|r| - 1] == '.' && '.' !in r[..|r| - 1]
      && r[..|r| - 1] <= response
      && (|r| - 1 < |response| ==> response[..|r|] == r)
    ensures style == "detailed" ==>
      && |r| == |response| + 1 + |voicePatterns.GetOr("")| + |DetailedTail|
      && response + " " <= r
      && r[|response| + 1..|r| - |DetailedTail|] == voicePatterns.GetOr("")
      && r[|r| - |DetailedTail|..] == DetailedTail
    ensures style != "concise" && style != "detailed" ==> r == response
  {
    if style == "concise" then
      var first := BeforeFirst(response, '.');
      var r := first + ".";
      assert r[..|r| - 1] == first;
      r
    else if style == "detailed" then
      response + " " + voicePatterns.GetOr("") + DetailedTail
    else
      response
  }

  /**
   * The OpenAI mock: the templated reply, cut to its first sentence when
   * concise, extended with the voice patterns and a closing remark when
   * detailed, unchanged for any other style.
   */
  function MockOpenAIResponse(c: Persona, prompt: string, style: string): (r: string)
    ensures style != "concise" && style != "detailed" ==> r == BaseResponse(c, prompt)
    ensures style == "concise" ==>
      && |r| >= 1 && r[|r| - 1] == '.' && '.' !in r[..|r| - 1] && r[..|r| - 1] <= BaseResponse(c, prompt)
      && (|r| - 1 < |BaseResponse(c, prompt)| ==> BaseResponse(c, prompt)[..|r|] == r)
    ensures style == "detailed" ==>
      && |r| == |BaseResponse(c, prompt)| + 1 + |c.voicePatterns.GetOr("")| + |DetailedTail|
      && BaseResponse(c, prompt) + " " <= r
      && r[|BaseResponse(c, prompt)| + 1..|r| - |DetailedTail|] == c.voicePatterns.GetOr("")
      && r[|r| - |DetailedTail|..] == DetailedTail
  {
    ApplyStyle(BaseResponse(c, prompt), style, c.voicePatterns)
  }

  /** The Anthropic mock answers exactly what the OpenAI mock answers. */
  function MockAnthropicResponse(c: Persona, prompt: string, style: string): string {
    MockOpenAIResponse(c, prompt, style)
  }

  /** The four replies of the local model. */
  function LocalResponses(name: string): seq<string> {
    [ "As " + name + ", I would say that's an interesting question.",
      "Given my background, I have some thoughts on this matter.",
      "I've considered this before, and my perspective is shaped by my experiences.",
      "That's something I've dealt with in the past." ]
  }

  /** The local mock: `Math.random()` is the parameter `rnd`, and picks one of the four replies. */
  function MockLocalModelResponse(c: Persona, rnd: real): (r: string)
    requires 0.0 <= rnd < 1.0
    ensures r in LocalResponses(c.name)
  {
    var i := (rnd * 4.0).Floor;
    assert 0 <= i < 4;
    LocalResponses(c.name)[i]
  }

  /** `generateResponse`: the reply of the provider that `SelectProvider` picks. */
  function GenerateResponse(keys: KeyState, c: Persona, prompt: string, memories: seq<Memory>, style: string, rnd: real): (r: string)
    requires 0.0 <= rnd < 1.0
    ensures HasOpenAIKey(keys) || HasAnthropicKey(keys) ==> r == MockOpenAIResponse(c, prompt, style)
    ensures !HasOpenAIKey(keys) && !HasAnthropicKey(keys) ==> r in LocalResponses(c.name)
  {
    match SelectProvider(keys.openaiKey, keys.anthropicKey)
    case OpenAI => MockOpenAIResponse(c, prompt, style)
    case Anthropic => MockAnthropicResponse(c, prompt, style)
    case LocalModel => MockLocalModelResponse(c, rnd)
  }

  /**
   * The reply depends on the keys only through the provider they select,
   * and never on the memories: two key states that pick the same provider
   * give the same reply, whatever memories each is given.
   */
  lemma {:induction false} GenerateResponseByProvider(keys: KeyState, other: KeyState, c: Persona, prompt: string,
                                                      memories: seq<Memory>, otherMemories: seq<Memory>, style: string, rnd: real)
    requires 0.0 <= rnd < 1.0
    requires SelectProvider(keys.openaiKey, keys.anthropicKey) == SelectProvider(other.openaiKey, other.anthropicKey)
    ensures GenerateResponse(keys, c, prompt, memories, style, rnd) == GenerateResponse(other, c, prompt, otherMemories, style, rnd)
  {
  }

  /** A memory row of a character. */
  datatype Memory = Memory(id: string, characterId: string, importance: int, content: string)

  /** The memories of one character, in table order. */
  function OfCharacter(table: seq<Memory>, characterId: string): (r: seq<Memory>)
    ensures forall m :: m in r <==> m in table && m.characterId == characterId
    ensures multiset(r) <= multiset(table)
  {
    if |table| == 0 then []
    else
      var rest := OfCharacter(table[1..], characterId);
      assert table == [table[0]] + table[1..];
      if table[0].characterId == characterId then [table[0]] + rest else rest
  }

  /** The sort key for descending importance. */
  function Urgency(m: Memory): int {
    -m.importance
  }

  const MemoryLimit: nat := 10

  /**
   * The memories the command loads: those of the character, by descending
   * importance, at most ten. Among equally important memories the store's
   * order is not fixed, and neither is this one.
   */
  function TopMemories(table: seq<Memory>, characterId: string): (r: seq<Memory>)
    ensures |r| <= MemoryLimit
    ensures multiset(r) <= multiset(table)
    ensures forall m :: m in r ==> m.characterId == characterId
    ensures forall i, j :: 0 <= i < j < |r| ==> r[i].importance >= r[j].importance
    ensures forall m, i :: m in table && m.characterId == characterId && m !in r && 0 <= i < |r| ==>
      m.importance <= r[i].importance
    ensures |r| < MemoryLimit ==> forall m :: m in table && m.characterId == characterId ==> m in r
  {
    var mine := OfCharacter(table, characterId);
    var sorted := SortBy(mine, Urgency);
    var n := if |sorted| <= MemoryLimit then |sorted| else MemoryLimit;
    var r := sorted[..n];
    TakeSortedMemories(table, characterId, mine, sorted, n, r);
    r
  }

  /** The facts `TopMemories` states, for a prefix of the sorted memories of the character. */
  lemma TakeSortedMemories(table: seq<Memory>, characterId: string, mine: seq<Memory>, sorted: seq<Memory>, n: nat, r: seq<Memory>)
    requires mine == OfCharacter(table, characterId)
    requires multiset(sorted) == multiset(mine) && SortedBy(sorted, Urgency)
    requires n <= |sorted| && r == sorted[..n]
    ensures multiset(r) <= multiset(table)
    ensures forall m :: m in r ==> m.characterId == characterId
    ensures forall i, j :: 0 <= i < j < |r| ==> r[i].importance >= r[j].importance
    ensures forall m, i :: m in table && m.characterId == characterId && m !in r && 0 <= i < |r| ==>
      m.importance <= r[i].importance
    ensures n == |sorted| ==> forall m :: m in table && m.characterId == characterId ==> m in r
  {
    assert sorted == r + sorted[n..];
    assert multiset(r) <= multiset(sorted);
    forall m | m in r
      ensures m.characterId == characterId
    {
      assert m in multiset(mine);
    }
    forall i, j | 0 <= i < j < n
      ensures sorted[i].importance >= sorted[j].importance
    {
      assert Urgency(sorted[i]) <= Urgency(sorted[j]);
    }
    OmittedMemories(table, characterId, sorted, n, r);
  }

  /** What a prefix of the sorted memories leaves out is no more important than what it keeps. */
  lemma OmittedMemories(table: seq<Memory>, characterId: string, sorted: seq<Memory>, n: nat, r: seq<Memory>)
    requires multiset(sorted) == multiset(OfCharacter(table, characterId)) && SortedBy(sorted, Urgency)
    requires n <= |sorted| && r == sorted[..n]
    ensures forall m, i :: m in table && m.characterId == characterId && m !in r && 0 <= i < |r| ==>
      m.importance <= r[i].importance
    ensures n == |sorted| ==> forall m :: m in table && m.characterId == characterId ==> m in r
  {
    forall m | m in table && m.characterId == characterId && m !in r
      ensures forall i :: 0 <= i < n ==> m.importance <= sorted[i].importance
    {
      assert m in multiset(sorted);
      SortedSplit(sorted, Urgency, n, m);
    }
    forall m | m in table && m.characterId == characterId && n == |sorted|
      ensures m in r
    {
      assert m in multiset(sorted);
    }
  }

  const CharacterNotFound := "Character not found"

  /**
   * `generate-character-response`. The character lookup is collaborator call 0
   * and the memory query call 1; `conversationStyle` defaults to 'accurate'.
   */
  function GenerateCharacterResponse(keys: KeyState, characters: map<string, Persona>, memories: seq<Memory>,
                                     characterId: string, prompt: string, style: Option<string>, rnd: real, fault: Fault): (r: Envelope<string>)
    requires 0.0 <= rnd < 1.0
    ensures r.Err? <==> fault.Throws(0) || characterId !in characters || fault.Throws(1)
    ensures !fault.Throws(0) && characterId !in characters ==> r == Err(Some(CharacterNotFound))
    ensures fault.Throws(0) || (characterId in characters && fault.Throws(1)) ==>
      r == Err(Some(Describe(fault.thrown)))
    ensures r.Ok? ==> r.data.Some?
    ensures r.Ok? && (HasOpenAIKey(keys) || HasAnthropicKey(keys)) ==>
      r.data.value == MockOpenAIResponse(characters[characterId], prompt, style.GetOr("accurate"))
    ensures r.Ok? && !HasOpenAIKey(keys) && !HasAnthropicKey(keys) ==>
      r.data.value in LocalResponses(characters[characterId].name)
  {
    if fault.Throws(0) then Err(Some(Describe(fault.thrown)))
    else if characterId !in characters then Err(Some(Describe(ErrorValue(CharacterNotFound))))
    else if fault.Throws(1) then Err(Some(Describe(fault.thrown)))
    else
      var used := TopMemories(memories, characterId);
      Ok(Some(GenerateResponse(keys, characters[characterId], prompt, used, style.GetOr("accurate"), rnd)))
  }

  /** The command's answer does not depend on which memories are stored. */
  lemma {:induction false} CharacterResponseIgnoresMemories(keys: KeyState, characters: map<string, Persona>,
                                                            memories: seq<Memory>, other: seq<Memory>, characterId: string,
                                                            prompt: string, style: Option<string>, rnd: real, fault: Fault)
    requires 0.0 <= rnd < 1.0
    ensures GenerateCharacterResponse(keys, characters, memories, characterId, prompt, style, rnd, fault)
         == GenerateCharacterResponse(keys, characters, other, characterId, prompt, style, rnd, fault)
  {
    if !fault.Throws(0) && characterId in characters && !fault.Throws(1) {
      GenerateResponseByProvider(keys, keys, characters[characterId], prompt, TopMemories(memories, characterId),
                                 TopMemories(other, characterId), style.GetOr("accurate"), rnd);
    }
  }

  /** `set-openai-key` as registered by this service: stores the key in the object and succeeds. */
  function SetOpenAIKeyCommand(s: KeyState, key: Option<string>): (r: (KeyState, Envelope<()>))
    ensures r.1 == Ok(None)
    ensures r.0.openaiKey == key && r.0.anthropicKey == s.anthropicKey
  {
    (SetOpenAIKey(s, key), Ok(None))
  }

  /** `set-anthropic-key` as registered by this service. */
  function SetAnthropicKeyCommand(s: KeyState, key: Option<string>): (r: (KeyState, Envelope<()>))
    ensures r.1 == Ok(None)
    ensures r.0.anthropicKey == key && r.0.openaiKey == s.openaiKey
  {
    (SetAnthropicKey(s, key), Ok(None))
  }
}

=== FILE: secure_storage.dfy ===
/**
 * The renderer's `SecureStorage` (src/renderer/services/SecureStorage.ts):
 * a string sealed with AES-CBC and PKCS#7 under a PBKDF2 key of a fixed
 * master secret and a fresh salt, packed as `salt:iv:ciphertext` in base64.
 */
module SecureStorage {
  import opened Wrappers
  import opened Octets
  import opened Text
  import opened Primitives
  import Base64

  const MasterKey := "REPLACE_WITH_A_SECURE_KEY"
  /** 256 bits: eight 32-bit words. */
  const KeyLength: nat := 32
  const FieldSeparator := ':'

  /**
   * AES in CBC mode, PBKDF2 (section 5.2 of RFC 8018), and UTF-8 as
   * `CryptoJS.enc.Utf8`, whose decoding throws on bytes that are not UTF-8.
   */
  datatype Host = Host(cbc: Cbc, pbkdf2: Kdf, utf8: StrictCodec)

  ghost predicate Sound(h: Host) {
    CbcCorrect(h.cbc) && StrictCodecCorrect(h.utf8)
  }

  /** The cipher key for a salt; decryption re-derives it from the salt field. */
  function KeyFor(h: Host, salt: Bytes): Bytes {
    h.pbkdf2(MasterKey, salt, KeyLength)
  }

  /** The PKCS#7-padded UTF-8 bytes of `data`, encrypted under the salt's key and the IV. */
  function Ciphertext(h: Host, data: string, salt: Bytes, iv: Bytes): Bytes {
    h.cbc.encrypt(KeyFor(h, salt), iv, Pad(h.utf8.encode(data)))
  }

  /**
   * `encrypt(data)`, with `salt` and `iv` standing for the two 128-bit random
   * draws: the three fields in base64 joined by ':'.
   */
  function Encrypt(h: Host, data: string, salt: Bytes, iv: Bytes): (r: string)
    ensures Split(r, FieldSeparator) ==
      [Base64.Encode(salt), Base64.Encode(iv), Base64.Encode(Ciphertext(h, data, salt, iv))]
    ensures var fields := Split(r, FieldSeparator);
      && Base64.Decode(fields[0]) == Some(salt)
      && Base64.Decode(fields[1]) == Some(iv)
      && Base64.Decode(fields[2]) == Some(Ciphertext(h, data, salt, iv))
  {
    var ct := Ciphertext(h, data, salt, iv);
    var fields := [Base64.Encode(salt), Base64.Encode(iv), Base64.Encode(ct)];
    Base64.EncodeAvoids(salt);
    Base64.EncodeAvoids(iv);
    Base64.EncodeAvoids(ct);
    SplitJoin(fields, FieldSeparator);
    Base64.DecodeEncode(salt);
    Base64.DecodeEncode(iv);
    Base64.DecodeEncode(ct);
    Join(fields, FieldSeparator)
  }

  /**
   * Why `decrypt` fails: too few fields, a field that is not base64, a
   * ciphertext that does not unpad, or a plaintext that is not UTF-8
   * ('Malformed UTF-8 data').
   */
  datatype Malformed = MissingField | BadBase64 | BadPadding | BadUtf8

  /**
   * `decrypt(ciphertext)`: the fields are read by position, the first three
   * being salt, IV and ciphertext; any further field is ignored.
   */
  function Decrypt(h: Host, packed: string): (r: Result<string, Malformed>)
    ensures |Split(packed, FieldSeparator)| < 3 <==> r == Failure(MissingField)
    ensures r.Success? ==> exists salt, iv, ct, plain ::
      && Base64.Decode(Split(packed, FieldSeparator)[0]) == Some(salt)
      && Base64.Decode(Split(packed, FieldSeparator)[1]) == Some(iv)
      && Base64.Decode(Split(packed, FieldSeparator)[2]) == Some(ct)
      && Unpad(h.cbc.decrypt(KeyFor(h, salt), iv, ct)) == Some(plain)
      && h.utf8.decode(plain) == Some(r.value)
    ensures var fields := Split(packed, FieldSeparator);
      |fields| >= 3 ==>
        var salt, iv, ct := Base64.Decode(fields[0]), Base64.Decode(fields[1]), Base64.Decode(fields[2]);
        && (salt.None? || iv.None? || ct.None? <==> r == Failure(BadBase64))
        && (salt.Some? && iv.Some? && ct.Some? ==>
              var plain := Unpad(h.cbc.decrypt(KeyFor(h, salt.value), iv.value, ct.value));
              && (plain.None? <==> r == Failure(BadPadding))
              && (plain.Some? ==>
                    var text := h.utf8.decode(plain.value);
                    r == if text.Some? then Success(text.value) else Failure(BadUtf8)))
  {
    var fields := Split(packed, FieldSeparator);
    if |fields| < 3 then Failure(MissingField)
    else
      var salt, iv, ct := Base64.Decode(fields[0]), Base64.Decode(fields[1]), Base64.Decode(fields[2]);
      if salt.None? || iv.None? || ct.None? then Failure(BadBase64)
      else
        match Unpad(h.cbc.decrypt(KeyFor(h, salt.value), iv.value, ct.value))
        case Some(plain) =>
          (match h.utf8.decode(plain)
           case Some(text) => Success(text)
           case None => Failure(BadUtf8))
        case None => Failure(BadPadding)
  }

  /** Decrypting what was encrypted gives the string back, whatever salt and IV were drawn. */
  lemma {:induction false} DecryptEncrypt(h: Host, data: string, salt: Bytes, iv: Bytes)
    requires Sound(h)
    ensures Decrypt(h, Encrypt(h, data, salt, iv)) == Success(data)
  {
    var bytes := h.utf8.encode(data);
    UnpadPad(bytes);
  }

  /** Fields after the third do not change what `decrypt` returns. */
  lemma {:induction false} ExtraFieldsIgnored(h: Host, fields: seq<string>, extra: seq<string>)
    requires |fields| == 3 && |extra| >= 1
    requires forall k :: 0 <= k < |fields| ==> FieldSeparator !in fields[k]
    requires forall k :: 0 <= k < |extra| ==> FieldSeparator !in extra[k]
    ensures Decrypt(h, Join(fields + extra, FieldSeparator)) == Decrypt(h, Join(fields, FieldSeparator))
  {
    var all := fields + extra;
    assert forall k :: 0 <= k < |all| ==> FieldSeparator !in all[k];
    SplitJoin(all, FieldSeparator);
    SplitJoin(fields, FieldSeparator);
  }
}

=== FILE: sorting.dfy ===
/**
 * Ordering by an integer key, the model of the ORM's `orderBy` clauses.
 * Descending order is ascending order of the negated key.
 */
module Sorting {

  /** `s` is in non-decreasing order of `key`. */
  predicate SortedBy<T>(s: seq<T>, key: T -> int) {
    forall i, j :: 0 <= i < j < |s| ==> key(s[i]) <= key(s[j])
  }

  /** Inserts `x` into the sorted `s` before the first element with a key at least `key(x)`. */
  function Insert<T>(x: T, s: seq<T>, key: T -> int): (r: seq<T>)
    requires SortedBy(s, key)
    ensures multiset(r) == multiset(s) + multiset{x}
    ensures SortedBy(r, key)
  {
    if |s| == 0 then [x]
    else if key(x) <= key(s[0]) then [x] + s
    else
      var t := Insert(x, s[1..], key);
      assert s == [s[0]] + s[1..];
      LowerBoundKept(s[0], x, s[1..], t, key);
      [s[0]] + t
  }

  /** A key below `x`'s and below every key of `rest` is below every key of a permutation of `rest` plus `x`. */
  lemma LowerBoundKept<T>(h: T, x: T, rest: seq<T>, t: seq<T>, key: T -> int)
    requires multiset(t) == multiset(rest) + multiset{x}
    requires key(h) <= key(x)
    requires forall k :: 0 <= k < |rest| ==> key(h) <= key(rest[k])
    ensures forall k :: 0 <= k < |t| ==> key(h) <= key(t[k])
  {
    forall k | 0 <= k < |t|
      ensures key(h) <= key(t[k])
    {
      assert t[k] in multiset(t);
      if t[k] != x {
        assert t[k] in multiset(rest);
        var m :| 0 <= m < |rest| && rest[m] == t[k];
      }
    }
  }

  /** `s` sorted by `key` (insertion sort; equal keys keep no particular order). */
  function SortBy<T>(s: seq<T>, key: T -> int): (r: seq<T>)
    ensures multiset(r) == multiset(s)
    ensures SortedBy(r, key)
  {
    if |s| == 0 then []
    else
      assert s == [s[0]] + s[1..];
      Insert(s[0], SortBy(s[1..], key), key)
  }

  /** In a sorted sequence, everything after position `n` has a key at least that of everything before it. */
  lemma SortedSplit<T>(s: seq<T>, key: T -> int, n: nat, x: T)
    requires SortedBy(s, key)
    requires n <= |s|
    requires x in s && x !in s[..n]
    ensures forall i :: 0 <= i < n ==> key(s[i]) <= key(x)
  {
    var k :| 0 <= k < |s| && s[k] == x;
  }
}

=== FILE: text.dfy ===
/**
 * The JavaScript string operations the application relies on: `trim`,
 * `toLowerCase` (restricted to ASCII), `includes`, `split` on one
 * character and `join`.
 */
module Text {
  import opened Wrappers

  /** JavaScript truthiness of a `string | null`: present and non-empty. */
  predicate Truthy(s: Option<string>) {
    s.Some? && s.value != ""
  }

  /** The characters `String.prototype.trim` removes: ECMAScript WhiteSpace and LineTerminator. */
  predicate IsWhite(c: char) {
    || c == '\t' || c == '\U{000B}' || c == '\U{000C}' || c == ' '
    || c == '\U{00A0}' || c == '\U{FEFF}' || c == '\U{1680}'
    || ('\U{2000}' <= c <= '\U{200A}')
    || c == '\U{202F}' || c == '\U{205F}' || c == '\U{3000}'
    || c == '\n' || c == '\r' || c == '\U{2028}' || c == '\U{2029}'
  }

  predicate AllWhite(s: string) {
    forall i :: 0 <= i < |s| ==> IsWhite(s[i])
  }

  /** `s` without its leading white space. */
  function TrimStart(s: string): (r: string)
    ensures |r| <= |s| && r == s[|s| - |r|..]
    ensures r == "" || !IsWhite(r[0])
    ensures AllWhite(s[..|s| - |r|])
  {
    if |s| > 0 && IsWhite(s[0]) then
      var r := TrimStart(s[1..]);
      assert s[1..][..|s| - 1 - |r|] == s[1..|s| - |r|];
      r
    else
      s
  }

  /** `s` without its trailing white space. */
  function TrimEnd(s: string): (r: string)
    ensures |r| <= |s| && r == s[..|r|]
    ensures r == "" || !IsWhite(r[|r| - 1])
    ensures AllWhite(s[|r|..])
  {
    if |s| > 0 && IsWhite(s[|s| - 1]) then
      var r := TrimEnd(s[..|s| - 1]);
      assert s[..|s| - 1][..|r|] == s[..|r|];
      assert s[|r|..] == s[..|s| - 1][|r|..] + [s[|s| - 1]];
      r
    else
      s
  }

  /** `r` occurs in `s` starting at index `a`. */
  predicate InfixAt(s: string, r: string, a: int) {
    0 <= a <= |s| - |r| && r == s[a..a + |r|]
  }

  /** `s.trim()`: the longest infix of `s` that neither starts nor ends with white space. */
  function Trim(s: string): (r: string)
    ensures exists a :: InfixAt(s, r, a) && AllWhite(s[..a]) && AllWhite(s[a + |r|..])
    ensures r == "" || (!IsWhite(r[0]) && !IsWhite(r[|r| - 1]))
  {
    var t := TrimStart(s);
    var r := TrimEnd(t);
    var a := |s| - |t|;
    assert InfixAt(s, r, a);
    assert AllWhite(s[..a]);
    assert AllWhite(s[a + |r|..]) by {
      assert s[a + |r|..] == t[|r|..];
    }
    r
  }

  /** The source's `!s.trim()`: the trimmed string is empty. */
  predicate IsBlank(s: string) {
    Trim(s) == ""
  }

  /** A string is blank exactly when every character in it is white space. */
  lemma BlankIffAllWhite(s: string)
    ensures IsBlank(s) <==> AllWhite(s)
  {
  }

  /** `toLowerCase` on one character, for the ASCII letters only. */
  function LowerChar(c: char): char {
    if 'A' <= c <= 'Z' then (c as int + 32) as char else c
  }

  /** `s.toLowerCase()`, ASCII letters only. */
  function Lower(s: string): string {
    seq(|s|, i requires 0 <= i < |s| => LowerChar(s[i]))
  }

  lemma LowerIdempotent(s: string)
    ensures Lower(Lower(s)) == Lower(s)
    ensures forall i :: 0 <= i < |s| ==> !('A' <= Lower(s)[i] <= 'Z')
  {
  }

  /** `s.includes(t)`. */
  predicate Contains(s: string, t: string)
    decreases |s|
  {
    |t| <= |s| && (s[..|t|] == t || Contains(s[1..], t))
  }

  /** `Contains` holds exactly when `t` occurs somewhere in `s`. */
  lemma {:induction false} ContainsIff(s: string, t: string)
    ensures Contains(s, t) <==> exists i :: InfixAt(s, t, i)
    decreases |s|
  {
    if |t| <= |s| {
      if s[..|t|] == t {
        assert InfixAt(s, t, 0);
      } else {
        ContainsIff(s[1..], t);
        if Contains(s[1..], t) {
          var i :| InfixAt(s[1..], t, i);
          assert forall k :: 0 <= k < |t| ==> t[k] == s[i + 1 + k];
          assert InfixAt(s, t, i + 1);
        }
        if exists i :: InfixAt(s, t, i) {
          var i :| InfixAt(s, t, i);
          assert i != 0;
          assert s[1..][i - 1..i - 1 + |t|] == s[i..i + |t|];
          assert InfixAt(s[1..], t, i - 1);
        }
      }
    }
  }

  /** Every string contains the empty string, so an empty search term matches everything. */
  lemma ContainsEmpty(s: string)
    ensures Contains(s, "")
  {
  }

  /** `parts.join(sep)`. */
  function Join(parts: seq<string>, sep: char): string
  {
    if |parts| == 0 then ""
    else if |parts| == 1 then parts[0]
    else parts[0] + [sep] + Join(parts[1..], sep)
  }

  /** `s.split(sep)` for a one-character separator. */
  function Split(s: string, sep: char): (parts: seq<string>)
    ensures |parts| >= 1
    ensures forall k :: 0 <= k < |parts| ==> sep !in parts[k]
    ensures Join(parts, sep) == s
  {
    if |s| == 0 then [""]
    else
      var rest := Split(s[1..], sep);
      if s[0] == sep then
        assert s == [sep] + s[1..];
        [""] + rest
      else
        var parts := [[s[0]] + rest[0]] + rest[1..];
        assert parts[1..] == rest[1..];
        assert s == [s[0]] + s[1..];
        parts
  }

  /** A separator-free string splits into itself. */
  lemma {:induction false} SplitNoSep(a: string, sep: char)
    requires sep !in a
    ensures Split(a, sep) == [a]
  {
    if |a| > 0 {
      SplitNoSep(a[1..], sep);
    }
  }

  /** Splitting `a + sep + t` peels off `a` when `a` has no separator. */
  lemma {:induction false} SplitAppend(a: string, t: string, sep: char)
    requires sep !in a
    ensures Split(a + [sep] + t, sep) == [a] + Split(t, sep)
  {
    var s := a + [sep] + t;
    if |a| == 0 {
      assert s[1..] == t;
    } else {
      assert s[1..] == a[1..] + [sep] + t;
      SplitAppend(a[1..], t, sep);
      assert [s[0]] + a[1..] == a;
    }
  }

  /** Joining separator-free parts and splitting again gives the parts back. */
  lemma {:induction false} SplitJoin(parts: seq<string>, sep: char)
    requires |parts| >= 1
    requires forall k :: 0 <= k < |parts| ==> sep !in parts[k]
    ensures Split(Join(parts, sep), sep) == parts
  {
    if |parts| == 1 {
      SplitNoSep(parts[0], sep);
    } else {
      SplitJoin(parts[1..], sep);
      SplitAppend(parts[0], Join(parts[1..], sep), sep);
      assert [parts[0]] + parts[1..] == parts;
    }
  }

  /** `s.split(c)[0]`: the longest prefix of `s` free of `c`. */
  function BeforeFirst(s: string, c: char): (r: string)
    ensures c !in r
    ensures |r| <= |s| && s[..|r|] == r
    ensures |r| < |s| ==> s[|r|] == c
  {
    var parts := Split(s, c);
    if |parts| > 1 then
      assert s == parts[0] + [c] + Join(parts[1..], c);
      parts[0]
    else
      parts[0]
  }
}

=== FILE: timeline_event_form.dfy ===
/**
 * The timeline-event dialog (src/renderer/components/timeline/TimelineEventForm.tsx).
 * Its change handler writes whatever input name it is given, so the form
 * data carries, besides its three fields, any other names written to it.
 */
module TimelineEventForm {
  import opened Wrappers
  import opened Text

  const DateRequired := "Date is required."
  const DescriptionRequired := "Description is required."

  /** The form data; `extra` holds values written under any other input name. */
  datatype FormData = FormData(date: string, description: string, charactersInvolved: string, extra: map<string, string>)

  datatype FormState = FormState(data: FormData, error: Option<string>)

  /** The event being edited; `date` is the stored date text. */
  datatype InitialEvent = InitialEvent(id: int, date: string, description: string, charactersInvolved: string)

  /** What `onSubmit` receives: the id and every entry of the form data. */
  datatype Submission = Submission(id: Option<int>, data: FormData)

  /** `new Date(text).toISOString()`: the ISO text, or what it throws for an invalid date. */
  type IsoFormatter = string -> Result<string, ()>

  const EmptyData := FormData("", "", "", map[])

  /** A date for the date input: the ISO text up to its 'T'. */
  function DayOf(iso: string): (d: string)
    ensures 'T' !in d
    ensures d <= iso
    ensures |d| < |iso| ==> iso[|d|] == 'T'
  {
    BeforeFirst(iso, 'T')
  }

  /**
   * The effect on `initialData`/`isOpen`, which runs whether or not the
   * dialog is open and leaves the error as it is: with a note, its fields
   * with the date normalised (an empty date stays empty); without one, all
   * fields empty. `None` when formatting the date throws.
   */
  function Populate(s: FormState, initial: Option<InitialEvent>, toIso: IsoFormatter): (r: Option<FormState>)
    ensures r.Some? ==> r.value.error == s.error && r.value.data.extra == map[]
    ensures initial.None? ==> r == Some(s.(data := EmptyData))
    ensures initial.Some? && initial.value.date == "" ==>
      r == Some(FormState(FormData("", initial.value.description, initial.value.charactersInvolved, map[]), s.error))
    ensures initial.Some? && initial.value.date != "" ==>
      (r.Some? <==> toIso(initial.value.date).Success?)
    ensures r.Some? && initial.Some? ==>
      && 'T' !in r.value.data.date
      && r.value.data.description == initial.value.description
      && r.value.data.charactersInvolved == initial.value.charactersInvolved
  {
    match initial
    case None => Some(s.(data := EmptyData))
    case Some(e) =>
      if e.date == "" then Some(FormState(FormData("", e.description, e.charactersInvolved, map[]), s.error))
      else match toIso(e.date)
        case Success(iso) => Some(FormState(FormData(DayOf(iso), e.description, e.charactersInvolved, map[]), s.error))
        case Failure(_) => None
  }

  /** `setFormData(prev => ({...prev, [name]: value}))`. */
  function HandleChange(s: FormState, name: string, value: string): (r: FormState)
    ensures r.error == s.error
    ensures name == "date" ==> r.data == s.data.(date := value)
    ensures name == "description" ==> r.data == s.data.(description := value)
    ensures name == "charactersInvolved" ==> r.data == s.data.(charactersInvolved := value)
    ensures name != "date" && name != "description" && name != "charactersInvolved" ==>
      r.data == s.data.(extra := s.data.extra[name := value])
  {
    var d := s.data;
    var d' :=
      if name == "date" then d.(date := value)
      else if name == "description" then d.(description := value)
      else if name == "charactersInvolved" then d.(charactersInvolved := value)
      else d.(extra := d.extra[name := value]);
    s.(data := d')
  }

  /** The validation error, date first; the characters field is never checked. */
  function ValidationError(d: FormData): (e: Option<string>)
    ensures e.None? <==> !AllWhite(d.date) && !AllWhite(d.description)
    ensures AllWhite(d.date) ==> e == Some(DateRequired)
    ensures !AllWhite(d.date) && AllWhite(d.description) ==> e == Some(DescriptionRequired)
  {
    BlankIffAllWhite(d.date);
    BlankIffAllWhite(d.description);
    if IsBlank(d.date) then Some(DateRequired)
    else if IsBlank(d.description) then Some(DescriptionRequired)
    else None
  }

  /** `handleSubmit`: clears the error, validates, and on success submits the id and the whole form data. */
  function HandleSubmit(s: FormState, initial: Option<InitialEvent>): (r: (FormState, Option<Submission>))
    ensures r.0.data == s.data
    ensures r.0.error == ValidationError(s.data)
    ensures r.1.Some? <==> !AllWhite(s.data.date) && !AllWhite(s.data.description)
    ensures r.1.Some? ==> r.1.value == Submission(if initial.Some? then Some(initial.value.id) else None, s.data)
  {
    var cleared := s.(error := None);
    match ValidationError(s.data)
    case Some(e) => (cleared.(error := Some(e)), None)
    case None =>
      (cleared, Some(Submission(if initial.Some? then Some(initial.value.id) else None, s.data)))
  }

  /** Whatever the characters field holds, it neither blocks nor enables a submission. */
  lemma {:induction false} CharactersNeverValidated(s: FormState, initial: Option<InitialEvent>, characters: string)
    ensures HandleSubmit(s, initial).1.Some? ==
            HandleSubmit(s.(data := s.data.(charactersInvolved := characters)), initial).1.Some?
  {
  }
}

=== FILE: timeline_form.dfy ===
/** The timeline dialog (src/renderer/components/timeline/TimelineForm.tsx), for creating and for editing. */
module TimelineForm {
  import opened Wrappers
  import opened Text
  import opened Envelopes
  import NamedForm

  const NameEmpty := "Timeline name cannot be empty."

  /** The timeline being edited. */
  datatype InitialTimeline = InitialTimeline(name: string, description: Option<string>)

  /**
   * The effect on `isOpen`/`initialData`: when open, copy the timeline (the
   * description defaulting to '') or clear both fields, and clear the error.
   */
  function Open(s: NamedForm.FormState, isOpen: bool, initial: Option<InitialTimeline>): (r: NamedForm.FormState)
    ensures !isOpen ==> r == s
    ensures isOpen ==> r.error.None?
    ensures isOpen && initial.Some? ==> r.name == initial.value.name && r.description == initial.value.description.GetOr("")
    ensures isOpen && initial.None? ==> r.name == "" && r.description == ""
  {
    if !isOpen then s
    else match initial
      case Some(t) => NamedForm.FormState(t.name, t.description.GetOr(""), None)
      case None => NamedForm.Blank
  }

  /** `handleSubmit`: a blank name is refused with this form's message. */
  function HandleSubmit(s: NamedForm.FormState, outcome: Option<Thrown>): (r: (NamedForm.FormState, Option<(string, string)>))
    ensures r.1.None? ==> r.0.error == Some(NameEmpty)
    ensures r.1.Some? ==> r.1.value == (s.name, s.description)
    ensures r.1.None? <==> AllWhite(s.name)
    ensures r.1.Some? ==> r.0.error == (if outcome.Some? then Some(NamedForm.RejectionMessage(outcome.value)) else None)
  {
    NamedForm.HandleSubmit(s, NameEmpty, outcome)
  }
}

=== FILE: vault.dfy ===
/**
 * The credential vault of the packaged main process
 * (src/dist/main/services/AIService.js): provider keys sealed with
 * AES-256-GCM under a key derived from the application secret, kept as two
 * entries of the operating-system keychain, and the commands that store,
 * read and test them.
 */
module Vault {
  import opened Wrappers
  import opened Octets
  import opened Text
  import opened Envelopes
  import opened Primitives
  import Base64
  import Responder

  /** The keychain service that holds the sealed keys. */
  const ServiceName := "AI-Character-Council"
  /** The keychain service that holds their initialization vectors. */
  const IvServiceName := ServiceName + "-iv"
  /** The secret used when the `APP_SECRET` environment variable is unset or empty. */
  const DefaultSecret := "default-dev-secret"
  /** The scrypt salt, the UTF-8 bytes of the string 'salt'. */
  const Salt: Bytes := [115, 97, 108, 116]
  const KeyLength: nat := 32
  const IvLength: nat := 16
  const DecryptFailed := "Failed to decrypt data"
  const IvNotFound := "Initialization vector not found"

  /**
   * What the vault takes from its host: the AES-256-GCM cipher, scrypt
   * (RFC 7914), UTF-8, and the value of `APP_SECRET` (`None` when unset).
   */
  datatype Host = Host(gcm: Aead, scrypt: Kdf, utf8: TextCodec, appSecretVar: Option<string>)

  /** The hypotheses the round trips rest on: the cipher opens what it sealed and UTF-8 decodes what it encoded. */
  ghost predicate Sound(h: Host) {
    AeadCorrect(h.gcm) && CodecCorrect(h.utf8)
  }

  /** `process.env.APP_SECRET || 'default-dev-secret'`. */
  function AppSecret(h: Host): (s: string)
    ensures s != ""
    ensures Truthy(h.appSecretVar) ==> s == h.appSecretVar.value
  {
    if Truthy(h.appSecretVar) then h.appSecretVar.value else DefaultSecret
  }

  /** The cipher key, derived afresh by every encryption and decryption. */
  function CipherKey(h: Host): Bytes {
    h.scrypt(AppSecret(h), Salt, KeyLength)
  }

  /** What `encrypt` returns: the sealed text with its tag, and the IV, both in base64. */
  datatype Sealed = Sealed(encryptedData: string, iv: string)

  /**
   * `encrypt(data)` with `iv` standing for `randomBytes(16)`: the base64
   * ciphertext and the base64 tag joined by '.', and the base64 IV.
   */
  function Encrypt(h: Host, data: string, iv: Bytes): (r: Sealed)
    ensures exists ct, tag :: r.encryptedData == Base64.Encode(ct) + "." + Base64.Encode(tag)
                              && h.gcm.seal(CipherKey(h), iv, h.utf8.encode(data)) == (ct, tag)
    ensures Base64.Decode(r.iv) == Some(iv)
  {
    var (ct, tag) := h.gcm.seal(CipherKey(h), iv, h.utf8.encode(data));
    Base64.DecodeEncode(iv);
    Sealed(Base64.Encode(ct) + "." + Base64.Encode(tag), Base64.Encode(iv))
  }

  /**
   * `decrypt(encryptedData, iv)`. Every failure inside (a part count other
   * than two, bad base64, a tag that does not authenticate) is reported as
   * the one error 'Failed to decrypt data'.
   */
  function Decrypt(h: Host, encryptedData: string, iv: string): (r: Result<string, string>)
    ensures r.Failure? ==> r.error == DecryptFailed
    ensures |Split(encryptedData, '.')| != 2 ==> r.Failure?
    ensures r.Success? ==> |Split(encryptedData, '.')| == 2 && exists ct, tag, ivBytes, p ::
      && Base64.Decode(Split(encryptedData, '.')[0]) == Some(ct)
      && Base64.Decode(Split(encryptedData, '.')[1]) == Some(tag)
      && Base64.Decode(iv) == Some(ivBytes)
      && h.gcm.open(CipherKey(h), ivBytes, ct, tag) == Some(p)
      && r.value == h.utf8.decode(p)
    ensures var parts := Split(encryptedData, '.');
      |parts| == 2 ==>
        var ct, tag, ivBytes := Base64.Decode(parts[0]), Base64.Decode(parts[1]), Base64.Decode(iv);
        ct.Some? && tag.Some? && ivBytes.Some? && h.gcm.open(CipherKey(h), ivBytes.value, ct.value, tag.value).Some? ==>
          r == Success(h.utf8.decode(h.gcm.open(CipherKey(h), ivBytes.value, ct.value, tag.value).value))
  {
    var parts := Split(encryptedData, '.');
    if |parts| != 2 then Failure(DecryptFailed)
    else
      var ct, tag, ivBytes := Base64.Decode(parts[0]), Base64.Decode(parts[1]), Base64.Decode(iv);
      if ct.None? || tag.None? || ivBytes.None? then Failure(DecryptFailed)
      else
        match h.gcm.open(CipherKey(h), ivBytes.value, ct.value, tag.value)
        case Some(p) => Success(h.utf8.decode(p))
        case None => Failure(DecryptFailed)
  }

  /** Decrypting what was encrypted gives the plaintext back. */
  lemma {:induction false} DecryptEncrypt(h: Host, data: string, iv: Bytes)
    requires Sound(h)
    ensures Decrypt(h, Encrypt(h, data, iv).encryptedData, Encrypt(h, data, iv).iv) == Success(data)
  {
    var (ct, tag) := h.gcm.seal(CipherKey(h), iv, h.utf8.encode(data));
    var a, b := Base64.Encode(ct), Base64.Encode(tag);
    var s := Encrypt(h, data, iv);
    assert s.encryptedData == Join([a, b], '.') by {
      assert [a, b][1..] == [b];
    }
    Base64.EncodeAvoids(ct);
    Base64.EncodeAvoids(tag);
    SplitJoin([a, b], '.');
    Base64.DecodeEncode(ct);
    Base64.DecodeEncode(tag);
    Base64.DecodeEncode(iv);
  }

  /** The keychain: a password per (service, account) pair. */
  type Keychain = map<(string, string), string>

  /** The two entries a provider's key occupies. */
  function DataSlot(service: string): (string, string) {
    (ServiceName, service)
  }

  function IvSlot(service: string): (string, string) {
    (IvServiceName, service)
  }

  /** `keytar.getPassword`: the password, or `null` when there is none. */
  function Password(kc: Keychain, slot: (string, string)): Option<string> {
    if slot in kc then Some(kc[slot]) else None
  }

  /** The two slots of one provider never coincide, and no two providers share a slot. */
  lemma SlotsDistinct(service: string, other: string)
    ensures DataSlot(service) != IvSlot(other)
    ensures DataSlot(service) == DataSlot(other) <==> service == other
    ensures IvSlot(service) == IvSlot(other) <==> service == other
  {
    assert ServiceName != IvServiceName by {
      assert |ServiceName| != |IvServiceName|;
    }
  }

  /** What `getApiKey` ran into: the key, no stored key, or an error it logged. */
  datatype Retrieval = Found(key: string) | Absent | Broken(reason: Thrown)

  /**
   * The steps of `getApiKey`. The two keychain reads are collaborator calls
   * 0 and 1. A missing or empty sealed entry is `Absent`; a missing or empty
   * IV, a failed decryption or a throwing keychain is `Broken`.
   */
  function Lookup(h: Host, kc: Keychain, service: string, fault: Fault): (r: Retrieval)
    ensures !fault.Throws(0) && !Truthy(Password(kc, DataSlot(service))) ==> r == Absent
    ensures r.Found? <==>
      && !fault.Throws(0) && !fault.Throws(1)
      && Truthy(Password(kc, DataSlot(service)))
      && Truthy(Password(kc, IvSlot(service)))
      && Decrypt(h, kc[DataSlot(service)], kc[IvSlot(service)]).Success?
    ensures r.Found? ==> r.key == Decrypt(h, kc[DataSlot(service)], kc[IvSlot(service)]).value
  {
    if fault.Throws(0) then Broken(fault.thrown)
    else if !Truthy(Password(kc, DataSlot(service))) then Absent
    else if fault.Throws(1) then Broken(fault.thrown)
    else if !Truthy(Password(kc, IvSlot(service))) then Broken(ErrorValue(IvNotFound))
    else
      match Decrypt(h, kc[DataSlot(service)], kc[IvSlot(service)])
      case Success(key) => Found(key)
      case Failure(msg) => Broken(ErrorValue(msg))
  }

  /** `getApiKey(service)`: never throws; every error becomes `null`. */
  function GetApiKey(h: Host, kc: Keychain, service: string, fault: Fault): (r: Option<string>)
    ensures r.Some? <==> Lookup(h, kc, service, fault).Found?
    ensures r.Some? ==> r.value == Lookup(h, kc, service, fault).key
  {
    match Lookup(h, kc, service, fault)
    case Found(key) => Some(key)
    case _ => None
  }

  /** `hasApiKey(service)`: `!!key`, so a stored empty key does not count. */
  function HasApiKey(h: Host, kc: Keychain, service: string, fault: Fault): (r: bool)
    ensures r <==> Truthy(GetApiKey(h, kc, service, fault))
  {
    match GetApiKey(h, kc, service, fault)
    case Some(key) => key != ""
    case None => false
  }

  /** `kc` and `kc'` agree everywhere except at the provider's two slots. */
  ghost predicate OthersUnchanged(kc: Keychain, kc': Keychain, service: string) {
    forall slot :: slot != DataSlot(service) && slot != IvSlot(service) ==>
      Password(kc', slot) == Password(kc, slot)
  }

  /**
   * `storeApiKey(service, key)` with `iv` standing for the random IV. The
   * two keychain writes are calls 0 and 1; a throw from either is rethrown,
   * and a throw from the second leaves the first written.
   */
  function StoreApiKey(h: Host, kc: Keychain, service: string, key: string, iv: Bytes, fault: Fault): (r: Effect<Keychain>)
    ensures OthersUnchanged(kc, r.state, service)
    ensures r.thrown.Some? <==> fault.Throws(0) || fault.Throws(1)
    ensures r.thrown.Some? ==> r.thrown.value == fault.thrown
    ensures fault.Throws(0) ==> r.state == kc
    ensures !fault.Throws(0) ==> Password(r.state, DataSlot(service)) == Some(Encrypt(h, key, iv).encryptedData)
    ensures fault.Throws(1) ==> Password(r.state, IvSlot(service)) == Password(kc, IvSlot(service))
    ensures !fault.Throws(0) && !fault.Throws(1) ==> Password(r.state, IvSlot(service)) == Some(Encrypt(h, key, iv).iv)
  {
    SlotsDistinct(service, service);
    var sealed := Encrypt(h, key, iv);
    if fault.Throws(0) then Effect(kc, Some(fault.thrown))
    else
      var kc1 := kc[DataSlot(service) := sealed.encryptedData];
      if fault.Throws(1) then Effect(kc1, Some(fault.thrown))
      else Effect(kc1[IvSlot(service) := sealed.iv], None)
  }

  /**
   * `deleteApiKey(service)`: removes both entries (a missing entry is not an
   * error); the two deletions are calls 0 and 1, and a throw is rethrown.
   */
  function DeleteApiKey(kc: Keychain, service: string, fault: Fault): (r: Effect<Keychain>)
    ensures OthersUnchanged(kc, r.state, service)
    ensures r.thrown.Some? <==> fault.Throws(0) || fault.Throws(1)
    ensures r.thrown.Some? ==> r.thrown.value == fault.thrown
    ensures fault.Throws(0) ==> r.state == kc
    ensures !fault.Throws(0) ==> DataSlot(service) !in r.state
    ensures fault.Throws(1) ==> Password(r.state, IvSlot(service)) == Password(kc, IvSlot(service))
    ensures !fault.Throws(0) && !fault.Throws(1) ==> IvSlot(service) !in r.state
  {
    SlotsDistinct(service, service);
    if fault.Throws(0) then Effect(kc, Some(fault.thrown))
    else
      var kc1 := kc - {DataSlot(service)};
      if fault.Throws(1) then Effect(kc1, Some(fault.thrown))
      else Effect(kc1 - {IvSlot(service)}, None)
  }

  /** A key stored without a fault reads back as itself, whatever the keychain held before. */
  lemma {:induction false} StoreThenGet(h: Host, kc: Keychain, service: string, key: string, iv: Bytes, fault: Fault)
    requires Sound(h) && |iv| == IvLength
    requires !fault.Throws(0) && !fault.Throws(1)
    ensures GetApiKey(h, StoreApiKey(h, kc, service, key, iv, NoFault).state, service, fault) == Some(key)
  {
    var s := Encrypt(h, key, iv);
    SealedNonEmpty(h, key, iv);
    var kc' := StoreApiKey(h, kc, service, key, iv, NoFault).state;
    assert Password(kc', DataSlot(service)) == Some(s.encryptedData);
    assert Password(kc', IvSlot(service)) == Some(s.iv);
    DecryptEncrypt(h, key, iv);
  }

  /** Both stored texts of a sealed key are non-empty, so a lookup reads them as present. */
  lemma SealedNonEmpty(h: Host, data: string, iv: Bytes)
    requires |iv| > 0
    ensures Encrypt(h, data, iv).encryptedData != "" && Encrypt(h, data, iv).iv != ""
  {
    var s := Encrypt(h, data, iv);
    var ct, tag :| s.encryptedData == Base64.Encode(ct) + "." + Base64.Encode(tag);
    assert |s.encryptedData| > 0;
    assert Base64.Decode("") == Some([]);
  }

  /** After a deletion without a fault the provider has no key. */
  lemma DeleteThenGet(h: Host, kc: Keychain, service: string, fault: Fault)
    requires !fault.Throws(0)
    ensures GetApiKey(h, DeleteApiKey(kc, service, NoFault).state, service, fault).None?
    ensures !HasApiKey(h, DeleteApiKey(kc, service, NoFault).state, service, fault)
  {
  }

  /** Deleting twice is deleting once. */
  lemma DeleteIdempotent(kc: Keychain, service: string)
    ensures DeleteApiKey(DeleteApiKey(kc, service, NoFault).state, service, NoFault) == DeleteApiKey(kc, service, NoFault)
  {
    var once := DeleteApiKey(kc, service, NoFault).state;
    var twice := DeleteApiKey(once, service, NoFault).state;
    assert once == kc - {DataSlot(service)} - {IvSlot(service)};
    assert twice == once - {DataSlot(service)} - {IvSlot(service)};
    assert twice.Keys == once.Keys;
    assert forall slot :: slot in twice ==> twice[slot] == once[slot];
    assert twice == once;
    assert DeleteApiKey(once, service, NoFault) == Effect(twice, None);
  }

  /** Reading one provider's key looks only at that provider's two slots. */
  lemma {:induction false} LookupLocal(h: Host, kc: Keychain, kc': Keychain, service: string, fault: Fault)
    requires Password(kc', DataSlot(service)) == Password(kc, DataSlot(service))
    requires Password(kc', IvSlot(service)) == Password(kc, IvSlot(service))
    ensures Lookup(h, kc', service, fault) == Lookup(h, kc, service, fault)
  {
  }

  /** Storing or deleting one provider's key leaves every other provider's key as it was. */
  lemma {:induction false} OtherProvidersUnaffected(h: Host, kc: Keychain, service: string, other: string, key: string, iv: Bytes,
                                                    fault: Fault, readFault: Fault)
    requires other != service
    ensures GetApiKey(h, StoreApiKey(h, kc, service, key, iv, fault).state, other, readFault) == GetApiKey(h, kc, other, readFault)
    ensures GetApiKey(h, DeleteApiKey(kc, service, fault).state, other, readFault) == GetApiKey(h, kc, other, readFault)
  {
    SlotsDistinct(other, service);
    SlotsDistinct(service, other);
    LookupLocal(h, kc, StoreApiKey(h, kc, service, key, iv, fault).state, other, readFault);
    LookupLocal(h, kc, DeleteApiKey(kc, service, fault).state, other, readFault);
  }

  /**
   * A store whose second write throws, for a provider that never had an IV,
   * leaves a sealed key that reads as broken: 'Initialization vector not found'.
   */
  lemma HalfWrittenStore(h: Host, kc: Keychain, service: string, key: string, iv: Bytes, t: Thrown)
    requires IvSlot(service) !in kc
    ensures Lookup(h, StoreApiKey(h, kc, service, key, iv, FailAt(1, t)).state, service, NoFault) == Broken(ErrorValue(IvNotFound))
  {
    var s := Encrypt(h, key, iv);
    assert s.encryptedData != "" by {
      var ct, tag :| s.encryptedData == Base64.Encode(ct) + "." + Base64.Encode(tag);
      assert |s.encryptedData| >= 1;
    }
  }

  /**
   * `set-api-key {service, key}`: a falsy key deletes, any other key is
   * stored; a throw becomes `{success: false, error}`.
   */
  function SetApiKeyCommand(h: Host, kc: Keychain, service: string, key: Option<string>, iv: Bytes, fault: Fault): (r: (Keychain, Envelope<()>))
    ensures OthersUnchanged(kc, r.0, service)
    ensures r.1.Err? <==> fault.Throws(0) || fault.Throws(1)
    ensures r.1.Err? ==> r.1.error == Some(Describe(fault.thrown))
    ensures r.1.Ok? ==> r.1.data.None?
    ensures !Truthy(key) ==> r.0 == DeleteApiKey(kc, service, fault).state
    ensures Truthy(key) ==> r.0 == StoreApiKey(h, kc, service, key.value, iv, fault).state
  {
    var e := if Truthy(key) then StoreApiKey(h, kc, service, key.value, iv, fault)
             else DeleteApiKey(kc, service, fault);
    match e.thrown
    case Some(t) => (e.state, Err(Some(Describe(t))))
    case None => (e.state, Ok(None))
  }

  /** After a successful `set-api-key`, `has-api-key` answers whether the key was non-empty. */
  lemma SetThenHas(h: Host, kc: Keychain, service: string, key: Option<string>, iv: Bytes)
    requires Sound(h) && |iv| == IvLength
    ensures var kc' := SetApiKeyCommand(h, kc, service, key, iv, NoFault).0;
      && (HasApiKey(h, kc', service, NoFault) <==> Truthy(key))
      && (Truthy(key) ==> GetApiKey(h, kc', service, NoFault) == key)
  {
    if Truthy(key) {
      StoreThenGet(h, kc, service, key.value, iv, NoFault);
    }
  }

  /** `get-api-key service`: always `{success: true, key}`, the key being `null` on any error. */
  function GetApiKeyCommand(h: Host, kc: Keychain, service: string, fault: Fault): (r: Envelope<Option<string>>)
    ensures r.Ok? && r.data.Some?
    ensures r.data.value.Some? <==> Lookup(h, kc, service, fault).Found?
    ensures r.data.value.Some? ==> r.data.value.value == Lookup(h, kc, service, fault).key
  {
    Ok(Some(GetApiKey(h, kc, service, fault)))
  }

  /** `has-api-key service`: always `{success: true, hasKey}`. */
  function HasApiKeyCommand(h: Host, kc: Keychain, service: string, fault: Fault): (r: Envelope<bool>)
    ensures r.Ok? && r.data.Some?
    ensures r.data.value <==> Lookup(h, kc, service, fault).Found? && Lookup(h, kc, service, fault).key != ""
  {
    Ok(Some(HasApiKey(h, kc, service, fault)))
  }

  /**
   * The keys `generateResponse` sees: the stored OpenAI key, then (only when
   * that one is falsy) the stored Anthropic key; each read has its own faults.
   */
  function StoredKeys(h: Host, kc: Keychain, openaiFault: Fault, anthropicFault: Fault): (r: Responder.KeyState)
    ensures r.openaiKey == GetApiKey(h, kc, "openai", openaiFault)
    ensures Truthy(r.openaiKey) ==> r.anthropicKey.None?
    ensures !Truthy(r.openaiKey) ==> r.anthropicKey == GetApiKey(h, kc, "anthropic", anthropicFault)
  {
    var openai := GetApiKey(h, kc, "openai", openaiFault);
    if Truthy(openai) then Responder.KeyState(openai, None)
    else Responder.KeyState(openai, GetApiKey(h, kc, "anthropic", anthropicFault))
  }

  /** The provider `generateResponse` picks is the first one whose stored key reads back non-empty. */
  lemma {:induction false} StoredProvider(h: Host, kc: Keychain, openaiFault: Fault, anthropicFault: Fault)
    ensures var k := StoredKeys(h, kc, openaiFault, anthropicFault);
      && (Responder.SelectProvider(k.openaiKey, k.anthropicKey) == Responder.OpenAI <==>
            HasApiKey(h, kc, "openai", openaiFault))
      && (Responder.SelectProvider(k.openaiKey, k.anthropicKey) == Responder.Anthropic <==>
            !HasApiKey(h, kc, "openai", openaiFault) && HasApiKey(h, kc, "anthropic", anthropicFault))
  {
    var k := StoredKeys(h, kc, openaiFault, anthropicFault);
    var p := Responder.SelectProvider(k.openaiKey, k.anthropicKey);
  }

  /**
   * `generate-character-response` of the packaged build: the same command,
   * with the keys read from the vault instead of held in memory.
   */
  function GenerateCharacterResponseCommand(h: Host, kc: Keychain, characters: map<string, Responder.Persona>,
                                            memories: seq<Responder.Memory>, characterId: string, prompt: string,
                                            style: Option<string>, rnd: real, fault: Fault,
                                            openaiFault: Fault, anthropicFault: Fault): (r: Envelope<string>)
    requires 0.0 <= rnd < 1.0
    ensures r.Err? <==> fault.Throws(0) || characterId !in characters || fault.Throws(1)
    ensures !fault.Throws(0) && characterId !in characters ==> r == Err(Some(Responder.CharacterNotFound))
    ensures r.Ok? && HasApiKey(h, kc, "openai", openaiFault) ==>
      r.data == Some(Responder.MockOpenAIResponse(characters[characterId], prompt, style.GetOr("accurate")))
    ensures r.Ok? && !HasApiKey(h, kc, "openai", openaiFault) && HasApiKey(h, kc, "anthropic", anthropicFault) ==>
      r.data == Some(Responder.MockAnthropicResponse(characters[characterId], prompt, style.GetOr("accurate")))
    ensures r.Ok? && !HasApiKey(h, kc, "openai", openaiFault) && !HasApiKey(h, kc, "anthropic", anthropicFault) ==>
      r.data.Some? && r.data.value in Responder.LocalResponses(characters[characterId].name)
  {
    var keys := StoredKeys(h, kc, openaiFault, anthropicFault);
    StoredProvider(h, kc, openaiFault, anthropicFault);
    Responder.GenerateCharacterResponse(keys, characters, memories, characterId, prompt, style, rnd, fault)
  }

  /**
   * The packaged command answers what the in-memory service answers for any
   * key state that selects the same provider as the keys in the vault.
   */
  lemma {:induction false} CommandAgreesWithService(h: Host, kc: Keychain, keys: Responder.KeyState,
                                                    characters: map<string, Responder.Persona>, memories: seq<Responder.Memory>,
                                                    characterId: string, prompt: string, style: Option<string>, rnd: real,
                                                    fault: Fault, openaiFault: Fault, anthropicFault: Fault)
    requires 0.0 <= rnd < 1.0
    requires Responder.HasOpenAIKey(keys) <==> HasApiKey(h, kc, "openai", openaiFault)
    requires !Responder.HasOpenAIKey(keys) ==>
      (Responder.HasAnthropicKey(keys) <==> HasApiKey(h, kc, "anthropic", anthropicFault))
    ensures GenerateCharacterResponseCommand(h, kc, characters, memories, characterId, prompt, style, rnd, fault, openaiFault, anthropicFault)
         == Responder.GenerateCharacterResponse(keys, characters, memories, characterId, prompt, style, rnd, fault)
  {
    var stored := StoredKeys(h, kc, openaiFault, anthropicFault);
    StoredProvider(h, kc, openaiFault, anthropicFault);
    if !fault.Throws(0) && characterId in characters && !fault.Throws(1) {
      Responder.GenerateResponseByProvider(stored, keys, characters[characterId], prompt,
                                           Responder.TopMemories(memories, characterId), Responder.TopMemories(memories, characterId),
                                           style.GetOr("accurate"), rnd);
    }
  }
}

=== FILE: wrappers.dfy ===
/** Optional values and results, used for the source's `null` returns and thrown errors. */
module Wrappers {

  /** A value that may be missing; stands for a TypeScript `T | null` or an absent optional field. */
  datatype Option<+T> = None | Some(value: T) {

    /** Returns the value, or `default` when it is missing (the source's `x ?? default`). */
    function GetOr(default: T): T {
      match this
      case Some(v) => v
      case None => default
    }
  }

  /** The outcome of an operation that can throw: the value it returns, or the error it throws. */
  datatype Result<+R, +E> = Success(value: R) | Failure(error: E)
}
